=== FILE: README.md ===
# Rule 190 MIDI renderer — a Dafny model

`rule190.py` renders the elementary cellular automaton Rule 190 as an eight-second MIDI
file. Each cell of a row is mapped to one pitch of a scale stacked across the row's width.
The row evolves with wrap-around (toroidal) neighbours. Births and deaths of cells become
note-on and note-off events. The events are sorted by (tick, priority) and packed into a
track of delta times. Before rendering, the program's driver cross-checks the automaton:
a single live cell evolved with a fixed-zero boundary, read as a binary number anchored
at its rightmost 1, must reproduce the integer sequence a(t) = 4a(t-1) + a(t-2) - 4a(t-3)
with a(0..2) = 1, 7, 29.

The model has these modules:

- `Bits`: cells as the integers 0/1, powers of two, and the binary value of a bit string.
- `Rule190`: the lookup table and the two step functions. It proves that the table is
  Wolfram rule 190, that the toroidal step commutes with rotation, and that the fixed-zero
  step is the toroidal step of the row padded with a zero on each side.
- `Validation`: the anchored encoding (as a reference function and as the program's two
  loops), the sequence (as the program's loop, with its recurrence and a closed form), and
  the driver's cross-check. The proof describes the light cone explicitly: at step t, cone
  cell j (for j in 0..2t) is live unless j mod 4 == 3. From this it follows that the
  cross-check holds for every width 1 + 2n and every step t <= n, not only for the
  twenty rows the driver inspects.
- `Scale`: the pitch pool, as the program's loop and as a closed-form reference.
- `Events`: the message datatype, the same-tick priority, a stable insertion sort, and
  delta packing with the program's `max(0, delta)` clamp. It proves the sort produces a
  sorted permutation, that it is stable within each key, and that packing round-trips.
- `Scheduler`: the scheduling loop as a fold over steps. The fold's state is the row, the
  per-cell ages, the set of sounding pitches, and the events emitted so far. It covers
  sustain mode, staccato mode, the final flush, and the sorted and packed track.
- `ScheduleProps`: invariants of one step. Ages are positive exactly on live cells.
  Velocities lie in [40, 110], and every sustain note-on has velocity 40. Every note-on
  lies inside the rendered window. Every note-on is eventually matched by a later
  note-off, whether through the sustain mode's pending set and final flush or through the
  staccato gate.
- `Render`: the program's loop as a method, and the properties of the written track.

The rule table, the neighbourhood key `(l << 2) | (c << 1) | r` (written as 4l + 2c + r on
0/1 cells) and the bit-packing `x |= 1 << bit` (an addition, since the bit is not yet set)
are modelled on integers.

## Model

| member | source | states |
|---|---|---|
| Rule190.TableIsRule190 | rule190.py:27-30 | the table has exactly the eight neighbourhood keys, and entry k is bit k of the rule number 190 |
| Rule190.Key | rule190.py:40 | the neighbourhood key of three 0/1 cells is one of the table's eight keys |
| Rule190.Apply | rule190.py:27-30 | a cell's next state is 0 exactly for the neighbourhoods 000 and 110 |
| Rule190.WrapIsModulo | rule190.py:37-39 | the wrapped neighbours are the cells at (i - 1) mod W and (i + 1) mod W, with Python's non-negative modulo |
| Rule190.NextToroidal | rule190.py:32-41 | the next row has the same width, and cell i dies exactly when its wrapped neighbourhood is 000 or 110 |
| Rule190.NextFixed0 | rule190.py:43-52 | the next row has the same width, and cell i dies exactly when its neighbourhood, with 0 outside the row, is 000 or 110 |
| Rule190.RotationEquivariant | rule190.py:32-41 | rotating the row by k places and then stepping equals stepping and then rotating |
| Rule190.Fixed0IsPaddedToroidal | rule190.py:43-52 | the fixed-zero step equals the toroidal step of the row padded with one 0 on each side, restricted to the original cells |
| Rule190.Fixed0KeepsZeroRow | rule190.py:43-52 | the all-zero row stays all-zero under the fixed-zero step |
| Validation.Rightmost | rule190.py:61-66 | the index of the rightmost 1, or -1; every cell after it is 0 |
| Validation.Anchored | rule190.py:56-75 | the encoding is 0 exactly when the row has no 1 |
| Validation.AnchoredAt | rule190.py:56-75 | the encoding is the binary value of the row up to its rightmost 1, read with that 1 as bit 0 |
| Validation.AnchoredBounds | rule190.py:56-75 | a non-zero encoding is odd and below 2^(index of the rightmost 1 + 1) |
| Validation.AnchoredIgnoresRightZeros | rule190.py:56-75 | zeros appended on the right do not change the encoding |
| Validation.AnchoredIgnoresLeftZeros | rule190.py:56-75 | zeros prepended on the left do not change the encoding: it is translation-invariant |
| Validation.ScanRightmost | rule190.py:61-66 | the backward scan finds the rightmost 1, or -1 when there is none |
| Validation.PackLeftward | rule190.py:69-75 | packing cells idx down to 0 into bits 0, 1, ... gives the binary value of the prefix ending at idx |
| Validation.RowToIntAnchorRightmost | rule190.py:56-75 | the function returns the anchored encoding: 0 for an all-zero row, otherwise odd and below 2^(rightmost + 1) |
| Validation.SingleOneSequence | rule190.py:78-91 | the empty list for n <= 0, otherwise n terms, where term t is a(t) of the sequence |
| Validation.SingleOneClosedForm | rule190.py:78-91 | closed form: 15·a(t) = 28·4^t - 10 - 3·(-1)^t |
| Validation.ConeEvolution | rule190.py:258-271 | from a centred single 1 in a row of width 1 + 2n, the fixed-zero evolution at step t <= n is the light-cone row of step t |
| Validation.ConeAnchored | rule190.py:267 | the anchored encoding of the light-cone row of step t is the cone's value at step t |
| Validation.PatternValue | rule190.py:80-90 | the cone's value at step t is a(t) |
| Validation.SingleOneMatchesRecurrence | rule190.py:253-271 | for every n and every t <= n, the anchored encoding of the fixed-zero evolution of the centred seed at step t is a(t) |
| Validation.ValidateSingleOne | rule190.py:253-274 | the driver's validation loop over the first maxCheck rows reports no mismatch, so it ends with ok |
| Scale.BuildScaleAcrossWidth | rule190.py:97-109 | the pool has max(width, 0) pitches, and pitch i is the root + 12·(i div K) + steps[i mod K] for a scale of K degrees |
| Scale.OctaveShift | rule190.py:103-108 | K positions further up the pool, the pitch is an octave (12 semitones) higher |
| Scale.ScaleIncreasing | rule190.py:97-109 | for degrees strictly increasing within one octave, the pool strictly increases, so no two cells share a pitch |
| Scale.NatMinorIsOctaveDegrees | rule190.py:95 | the natural-minor degrees increase strictly and stay within one octave |
| Events.Insert | rule190.py:220 | inserting adds exactly one element, the given one |
| Events.InsertSorted | rule190.py:210-220 | inserting into a sorted list keeps it sorted by (tick, priority) |
| Events.SortEvents | rule190.py:209-220 | the result is a permutation of the input, sorted by (tick, priority): tempo before note-off before note-on at one tick |
| Events.SortStable | rule190.py:220 | events with equal keys keep their relative order: the sort is stable, like Python's list.sort |
| Events.SortKeepsSorted | rule190.py:220 | an already sorted list is left unchanged |
| Events.Pack | rule190.py:226-231 | the track has one message per event, in order, with the event's message and a non-negative delta |
| Events.SortedIsMonotone | rule190.py:220-231 | a sorted list whose first tick is at least the starting tick has non-decreasing ticks |
| Events.PackRoundTrip | rule190.py:226-231 | on non-decreasing ticks, the first delta is the first tick minus the starting tick, and summing the deltas back recovers every absolute tick |
| Events.UnpackRoundTrip | rule190.py:226-231 | every track with non-negative deltas reads back to a non-decreasing event list that packs to the same track |
| Events.ClampMovesLateEvents | rule190.py:228-229 | on unsorted input the clamp is not a no-op: for any two events where the second is earlier than the first (and the first is not before the starting tick), the packed pair reads back with the second moved to the first's tick |
| Scheduler.Velocity | rule190.py:183 | velocity is exactly min(30 + 10·age, 110), so at least 40 for a live cell |
| Scheduler.Gate | rule190.py:189 | the staccato gate is between 1 and q ticks, and equals the configured gate ticks whenever those are positive |
| Scheduler.Changed | rule190.py:164-175 | the listed cells are exactly the cells that go from one given state to another |
| Scheduler.Offs | rule190.py:178-181 | a note-off is emitted for exactly those dying pitches that are sounding, at most one per pitch, and they are removed from the sounding set |
| Scheduler.Ons | rule190.py:182-185 | one note-on per born cell, carrying its pitch and the velocity of its age |
| Scheduler.Retrigger | rule190.py:190-198 | exactly one (note-on, note-off) pair per live cell: a note-on at the step's base tick for every live cell, each with a note-off of its pitch at the gate tick, and twice as many events as live cells; every event is a note-on at the base tick or a note-off at the gate tick |
| Scheduler.RetriggerLive | rule190.py:190-196 | every re-triggered note-on and note-off carries the pitch of a cell that is live after the step, so dead cells and foreign pitches emit nothing |
| Scheduler.Ascending | rule190.py:205 | the sounding pitches are listed in strictly increasing order, each exactly once |
| Scheduler.Flush | rule190.py:202-207 | the flush switches off every sounding pitch at the end tick, in increasing pitch order, and nothing else |
| ScheduleProps.AgeUpdate | rule190.py:164-175 | after the age update a cell's age is positive exactly when it is live; a surviving cell gains 1 and a born cell gets 1 |
| ScheduleProps.StepKeepsAges | rule190.py:164-198 | a step keeps ages non-negative and zero on dead cells, in both modes |
| ScheduleProps.RetriggerVelocities | rule190.py:192-195 | every staccato note-on has velocity in [40, 110] |
| ScheduleProps.SustainShape | rule190.py:161-185 | with `dead` the pitches of the dying cells and `born` those of the born cells, a sustain step emits note-offs first, exactly for the dying pitches that are sounding, no pitch getting two note-offs, then a velocity-40 note-on for every born pitch, all at the step's base tick; the sounding set loses the dead pitches and gains the born ones |
| ScheduleProps.StaccatoShape | rule190.py:187-198 | a staccato step emits note-ons at the base tick and note-offs exactly one gate later, pairing every note-on with a note-off; the sounding set is unchanged |
| ScheduleProps.EmittedOk | rule190.py:157-198 | a step's events lie within its step window, note-ons strictly before the window's end, with velocities in [40, 110] (exactly 40 in sustain mode) |
| ScheduleProps.StepKeepsEventsOk | rule190.py:147-200 | the whole event list keeps its shape: the tempo event first and no other tempo message, every event in [0, n·q], note-ons before n·q, with bounded velocities |
| ScheduleProps.StepKeepsPending | rule190.py:161-185 | in sustain mode, every note-on is either switched off later or its pitch is still in the sounding set |
| ScheduleProps.FlushReleases | rule190.py:202-207 | after the final flush every note-on has a note-off of its pitch at a strictly later tick |
| ScheduleProps.FlushKeepsEventsOk | rule190.py:202-207 | the flushed note-offs lie at the end tick, inside the window |
| ScheduleProps.StepKeepsGated | rule190.py:187-198 | in staccato mode, every note-on keeps its note-off exactly one gate later |
| ScheduleProps.GatedReleased | rule190.py:189-196 | with a gate of at least one tick, every note-on is switched off at a strictly later tick |
| ScheduleProps.StepKeepsActiveLive | rule190.py:161-185 | in sustain mode, every sounding pitch belongs to a live cell |
| Render.ScheduleEvents | rule190.py:127-207 | the event list computed by the program's loop starts with the tempo event, holds no other tempo message, lies in [0, steps·q], has velocities in [40, 110], and switches off every note-on at a later tick |
| Render.SortedKeepsEventsOk | rule190.py:209-220 | after sorting, the tempo event comes first, no later event is a tempo message, and every event still lies in the window |
| Render.TempoStaysFirst | rule190.py:209-220 | a permutation of the event list that keeps its first event in place has no tempo message after position 0 when the list had none there; sorting therefore neither moves nor duplicates the tempo event |
| Render.SortedReleased | rule190.py:209-220 | after sorting, every note-on is followed, later in the list, by a note-off of its pitch at a later tick |
| Render.RenderTrack | rule190.py:209-231 | the written track encodes a sorted permutation of the schedule that starts with the tempo event and holds no other tempo message; the clamp never fires, so its deltas read back to exactly that list; every note-on is released later in the track |
| Render.OffSortsBeforeOn | rule190.py:210-218 | for every tick, pitch and velocity, the note-off of a pitch sorts before a note-on of that pitch at the same tick |
| Render.ZeroGateHangs | rule190.py:189-196 | as written, with a gate that truncates to 0 ticks, the last event of the sorted track is a note-on that nothing switches off |

## Left out

- The `mido` library and the file output: messages are the `Events.Message` datatype, and the track is a list of (delta, message) pairs.
- Channel numbers and note-off velocities: they are always 0 in the program.
- Priority 2, for message types other than tempo, note-on and note-off: the scheduler never creates such messages.
- `seconds_per_step`, `steps_for_8_seconds`, `mido.bpm2tempo` and the gate's float arithmetic. The number of steps, the tempo in microseconds per beat, and the gate in whole ticks (`int(q * gate_frac)`) are inputs to the model. Whether a positive gate is given is the `staccato` flag (rule190.py:151); a gate of 0 or less selects sustain mode.
- `main`'s printing. `Validation.ValidateSingleOne` models the driver's check.
- Render.ScheduleEvents: requires a pitch for every cell (`|row0| <= |scale|`). With too short a scale, the program raises an IndexError in some cases. In sustain mode with at least one step, it raises one because it reads the pitch of every cell (rule190.py:167). In staccato mode, it raises one only when a cell without a pitch comes alive (rule190.py:193). With 0 steps it never raises. The model excludes all of these inputs rather than representing the exception. Render.RenderTrack has the same requirement.
- MIDI note numbers: `mido` rejects a note outside 0..127 with a ValueError, but the model emits any integer pitch. For example, root 60 with the natural-minor degrees gives cell 40 the pitch 60 + 12·5 + 8 = 128 when the width is 41 or more.
- Scale.BuildScaleAcrossWidth: requires a non-empty list of degrees when the width is positive. With no degrees the program's loop never ends.
- Cells other than 0 and 1: the model's `Bit` type admits only those. The toroidal step raises a KeyError on any row holding such a cell: every cell is some cell's left neighbour, and its shifted value makes that cell's key at least 8 or negative (rule190.py:36-40). The fixed-zero step accepts some such rows; for example, `next_rule190_fixed0([0, 2])` gives `[1, 1]` (rule190.py:47-51). The anchored encoding treats any non-zero cell as 1 (rule190.py:64, 72). The model excludes all these inputs.
- `span_octaves`: `build_scale_across_width` accepts it but never reads it. The model takes it and ignores it too.
- Scheduler.Changed: the contract states which cells are listed, but not that they appear in increasing cell order. The order only affects the relative order of same-tick events, which the stable sort (`Events.SortStable`) preserves.
- Scheduler.Gate: the model's staccato mode uses the corrected gate of at least one tick (see Findings). The as-written zero-tick gate appears only in `Render.ZeroGateHangs`. Render.ScheduleEvents and Render.RenderTrack inherit it: their promise that every note-on is switched off at a later tick holds for the corrected gate, not for the program as written when `int(q * gate_frac)` is 0.
- Negative deltas: the code clamps a negative delta with `max(0, delta)`, and the model follows the code. `Render.RenderTrack` proves that the clamp never fires on the sorted list, and `Events.ClampMovesLateEvents` shows what the clamp would do on unsorted input.

## Findings

| source | as written | input that shows it | evidently intended | confidence | as-written member | corrected member |
|---|---|---|---|---|---|---|
| rule190.py:189-196 | the staccato note-off lies `int(q * gate_frac)` ticks after the note-on. For a positive gate below 1/q this is 0 ticks, so the note-off and note-on share a tick, and the sort places the note-off first | q = 240, gate = 0.001, one live cell of pitch 60, one step: the track is tempo, note-off 60, note-on 60, and the note is never released. Over more steps each step tick carries a note-off 60 / note-on 60 pair, so the track still ends with an unreleased note-on | every staccato note-on is switched off at a strictly later tick (a gate of at least one tick) | not executed | Render.ZeroGateHangs | Render.RenderTrack |

=== FILE: arith.dfy ===
/** Euclidean division facts used where the program takes `%` or `//` of a non-negative
    number by a positive one (where Python's and Dafny's operators agree). */
module Arith {

  lemma {:induction false} MulAtLeast(k: nat, w: int)
    requires k >= 1 && w > 0
    ensures k * w >= w
    decreases k
  {
    if k > 1 {
      MulAtLeast(k - 1, w);
      assert k * w == (k - 1) * w + w;
    }
  }

  /** Euclidean division is unique: a quotient and a remainder in [0, w) determine `%`. */
  lemma ModUnique(a: int, q: int, r: int, w: int)
    requires w > 0 && 0 <= r < w && a == q * w + r
    ensures a % w == r
  {
    var q', r' := a / w, a % w;
    assert a == q' * w + r';
    assert (q - q') * w == r' - r;
    if q > q' {
      MulAtLeast(q - q', w);
    } else if q < q' {
      MulAtLeast(q' - q, w);
    }
  }

  /** ... and they determine `/` as well. */
  lemma DivModUnique(a: int, q: int, r: int, w: int)
    requires w > 0 && 0 <= r < w && a == q * w + r
    ensures a / w == q && a % w == r
  {
    ModUnique(a, q, r, w);
    assert (a / w - q) * w == 0;
  }

  /** Division by a positive number is monotone. */
  lemma DivMonotone(i: nat, j: nat, k: int)
    requires k > 0 && i <= j
    ensures i / k <= j / k
  {
    if i / k > j / k {
      MulAtLeast(i / k - j / k, k);
    }
  }
}

=== FILE: bits.dfy ===
/** Binary helpers shared by the rule engine and the validation math. */
module Bits {

  /** A cell state. The program stores cells as the integers 0 and 1. */
  type Bit = b: int | 0 <= b <= 1

  function Pow2(k: nat): (p: nat)
    ensures p >= 1
  {
    if k == 0 then 1 else 2 * Pow2(k - 1)
  }

  function Zeros(k: nat): (z: seq<Bit>)
    ensures |z| == k
    ensures forall i :: 0 <= i < k ==> z[i] == 0
  {
    seq(k, i => 0)
  }

  /** The value of `bits` read as a binary numeral, most significant bit first. */
  function Value(bits: seq<Bit>): nat
  {
    if |bits| == 0 then 0
    else 2 * Value(bits[..|bits| - 1]) + bits[|bits| - 1]
  }

  /** A numeral of k bits is below 2^k, and it is odd when its last bit is 1. */
  lemma {:induction false} ValueBounds(bits: seq<Bit>)
    ensures Value(bits) < Pow2(|bits|)
    ensures |bits| > 0 && bits[|bits| - 1] == 1 ==> Value(bits) % 2 == 1
    decreases |bits|
  {
    if |bits| > 0 {
      ValueBounds(bits[..|bits| - 1]);
    }
  }

  /** Adding a most significant bit `b` in front adds `b * 2^|bits|`. */
  lemma {:induction false} ValuePrepend(b: Bit, bits: seq<Bit>)
    ensures Value([b] + bits) == b * Pow2(|bits|) + Value(bits)
    decreases |bits|
  {
    if |bits| > 0 {
      var n := |bits|;
      assert ([b] + bits)[..n] == [b] + bits[..n - 1];
      ValuePrepend(b, bits[..n - 1]);
    }
  }

  /** Leading zeros do not change a binary value. */
  lemma {:induction false} ValueLeadingZeros(k: nat, bits: seq<Bit>)
    ensures Value(Zeros(k) + bits) == Value(bits)
    decreases k
  {
    if k > 0 {
      var rest := Zeros(k - 1) + bits;
      assert Zeros(k) + bits == [0] + rest;
      ValuePrepend(0, rest);
      assert Value([0] + rest) == Value(rest);
      ValueLeadingZeros(k - 1, bits);
    } else {
      assert Zeros(k) + bits == bits;
    }
  }

  /** Appending a least significant bit `b` doubles the value and adds `b`. */
  lemma ValueSnoc(bits: seq<Bit>, b: Bit)
    ensures Value(bits + [b]) == 2 * Value(bits) + b
  {
    assert (bits + [b])[..|bits|] == bits;
  }
}

=== FILE: events.dfy ===
/** Timed messages, the same-tick ordering, the stable sort and delta-time packing. */
module Events {

  /** The three messages the scheduler produces: the tempo meta message (microseconds per
      beat), a note-on with its velocity, and a note-off. Channel and note-off velocity are
      always 0 in the program and are not represented. */
  datatype Message = Tempo(usPerBeat: int) | NoteOn(note: int, velocity: int) | NoteOff(note: int)

  /** A message at an absolute tick. */
  datatype Event = Event(tick: int, msg: Message)

  /** Same-tick order: the tempo meta message, then note-offs, then note-ons. */
  function Priority(m: Message): int
  {
    match m
    case Tempo(_) => -1
    case NoteOff(_) => 0
    case NoteOn(_, _) => 1
  }

  /** The sort key `(tick, priority)` compared lexicographically. */
  predicate KeyLe(a: Event, b: Event)
  {
    a.tick < b.tick || (a.tick == b.tick && Priority(a.msg) <= Priority(b.msg))
  }

  predicate Sorted(s: seq<Event>)
  {
    forall i, j :: 0 <= i < j < |s| ==> KeyLe(s[i], s[j])
  }

  /** Inserts `e` in front of the first element whose key is not smaller than its own, so
      that it stays ahead of every element with an equal key. */
  function Insert(e: Event, s: seq<Event>): (r: seq<Event>)
    ensures |r| == |s| + 1
    ensures multiset(r) == multiset(s) + multiset{e}
  {
    if |s| == 0 then [e]
    else if KeyLe(e, s[0]) then [e] + s
    else
      assert s == [s[0]] + s[1..];
      [s[0]] + Insert(e, s[1..])
  }

  /** Insertion keeps a sorted list sorted. */
  lemma {:induction false} InsertSorted(e: Event, s: seq<Event>)
    requires Sorted(s)
    ensures Sorted(Insert(e, s))
    decreases |s|
  {
    if |s| > 0 && !KeyLe(e, s[0]) {
      var t := Insert(e, s[1..]);
      assert Sorted(s[1..]);
      InsertSorted(e, s[1..]);
      forall j | 0 <= j < |t|
        ensures KeyLe(s[0], t[j])
      {
        assert t[j] in multiset(t);
        if t[j] != e {
          assert t[j] in multiset(s[1..]);
          var k :| 0 <= k < |s[1..]| && s[1..][k] == t[j];
          assert s[k + 1] == t[j];
        }
      }
      assert Insert(e, s) == [s[0]] + t;
    }
  }

  /** Insertion sort by the key: the result is a sorted permutation of the input. */
  function SortEvents(evs: seq<Event>): (r: seq<Event>)
    ensures |r| == |evs|
    ensures multiset(r) == multiset(evs)
    ensures Sorted(r)
  {
    if |evs| == 0 then []
    else
      assert evs == [evs[0]] + evs[1..];
      InsertSorted(evs[0], SortEvents(evs[1..]));
      Insert(evs[0], SortEvents(evs[1..]))
  }

  /** The events whose key is `(tick, pri)`, in their order of appearance. */
  function WithKey(s: seq<Event>, tick: int, pri: int): seq<Event>
  {
    if |s| == 0 then []
    else KeyPart(s[0], tick, pri) + WithKey(s[1..], tick, pri)
  }

  /** The key-`(tick, pri)` part of a list with one more element in front. */
  function KeyPart(x: Event, tick: int, pri: int): seq<Event>
  {
    if x.tick == tick && Priority(x.msg) == pri then [x] else []
  }

  lemma WithKeyCons(x: Event, t: seq<Event>, tick: int, pri: int)
    ensures WithKey([x] + t, tick, pri) == KeyPart(x, tick, pri) + WithKey(t, tick, pri)
  {
    assert ([x] + t)[1..] == t;
  }

  /** Inserting `e` puts it in front of every event of its own key: the events it passes
      all have strictly smaller keys. The list need not be sorted. */
  lemma {:induction false} InsertWithKey(e: Event, s: seq<Event>, tick: int, pri: int)
    ensures WithKey(Insert(e, s), tick, pri) == KeyPart(e, tick, pri) + WithKey(s, tick, pri)
    decreases |s|
  {
    if |s| == 0 {
      WithKeyCons(e, [], tick, pri);
    } else if KeyLe(e, s[0]) {
      WithKeyCons(e, s, tick, pri);
    } else {
      InsertWithKey(e, s[1..], tick, pri);
      assert s == [s[0]] + s[1..];
      PassSmaller(e, s[0], s[1..], Insert(e, s[1..]), tick, pri);
    }
  }

  /** One step of InsertWithKey: `e` passes an event `x` of strictly smaller key. */
  lemma PassSmaller(e: Event, x: Event, rest: seq<Event>, t: seq<Event>, tick: int, pri: int)
    requires !KeyLe(e, x)
    requires WithKey(t, tick, pri) == KeyPart(e, tick, pri) + WithKey(rest, tick, pri)
    ensures WithKey([x] + t, tick, pri) == KeyPart(e, tick, pri) + WithKey([x] + rest, tick, pri)
  {
    WithKeyCons(x, t, tick, pri);
    WithKeyCons(x, rest, tick, pri);
    var p0, pe, w := KeyPart(x, tick, pri), KeyPart(e, tick, pri), WithKey(rest, tick, pri);
    assert p0 == [] || pe == [];
    assert p0 + (pe + w) == pe + (p0 + w);
  }

  /** The sort is stable: among events with equal keys the input order survives. */
  lemma {:induction false} SortStable(evs: seq<Event>, tick: int, pri: int)
    ensures WithKey(SortEvents(evs), tick, pri) == WithKey(evs, tick, pri)
    decreases |evs|
  {
    if |evs| > 0 {
      SortStable(evs[1..], tick, pri);
      InsertWithKey(evs[0], SortEvents(evs[1..]), tick, pri);
    }
  }

  /** Sorting an already ordered list changes nothing. */
  lemma {:induction false} SortKeepsSorted(evs: seq<Event>)
    requires Sorted(evs)
    ensures SortEvents(evs) == evs
    decreases |evs|
  {
    if |evs| > 0 {
      assert Sorted(evs[1..]);
      SortKeepsSorted(evs[1..]);
      assert evs == [evs[0]] + evs[1..];
    }
  }

  /** A packed track entry: the ticks since the previous entry, and the message. */
  datatype TrackMsg = TrackMsg(delta: int, msg: Message)

  /** Delta packing: each entry's delta is `max(0, tick - last)`, where `last` is the
      previous event's absolute tick (0 before the first event). */
  function Pack(evs: seq<Event>, last: int): (track: seq<TrackMsg>)
    ensures |track| == |evs|
    ensures forall k :: 0 <= k < |track| ==> track[k].delta >= 0 && track[k].msg == evs[k].msg
  {
    if |evs| == 0 then []
    else
      var delta := evs[0].tick - last;
      [TrackMsg(if delta > 0 then delta else 0, evs[0].msg)] + Pack(evs[1..], evs[0].tick)
  }

  /** The reading side: absolute ticks are the running sums of the deltas from `last`. */
  function Unpack(track: seq<TrackMsg>, last: int): (evs: seq<Event>)
    ensures |evs| == |track|
  {
    if |track| == 0 then []
    else
      var tick := last + track[0].delta;
      [Event(tick, track[0].msg)] + Unpack(track[1..], tick)
  }

  /** Ticks never decrease, starting from `last`. */
  predicate Monotone(evs: seq<Event>, last: int)
    decreases |evs|
  {
    |evs| == 0 || (last <= evs[0].tick && Monotone(evs[1..], evs[0].tick))
  }

  /** A key-sorted list starting no earlier than `last` has non-decreasing ticks. */
  lemma {:induction false} SortedIsMonotone(evs: seq<Event>, last: int)
    requires Sorted(evs) && (|evs| > 0 ==> last <= evs[0].tick)
    ensures Monotone(evs, last)
    decreases |evs|
  {
    if |evs| > 1 {
      assert KeyLe(evs[0], evs[1]);
      assert Sorted(evs[1..]);
      SortedIsMonotone(evs[1..], evs[0].tick);
    }
  }

  /** On monotone input the clamp never fires: every delta is exactly the tick difference,
      and the running sums give back every absolute tick. */
  lemma {:induction false} PackRoundTrip(evs: seq<Event>, last: int)
    requires Monotone(evs, last)
    ensures |evs| > 0 ==> Pack(evs, last)[0].delta == evs[0].tick - last
    ensures Unpack(Pack(evs, last), last) == evs
    decreases |evs|
  {
    if |evs| > 0 {
      PackRoundTrip(evs[1..], evs[0].tick);
      assert Pack(evs, last)[1..] == Pack(evs[1..], evs[0].tick);
    }
  }

  /** Conversely, a track with non-negative deltas reads as monotone events that pack back
      into the same track. */
  lemma {:induction false} UnpackRoundTrip(track: seq<TrackMsg>, last: int)
    requires forall k :: 0 <= k < |track| ==> track[k].delta >= 0
    ensures Monotone(Unpack(track, last), last)
    ensures Pack(Unpack(track, last), last) == track
    decreases |track|
  {
    if |track| > 0 {
      var tick := last + track[0].delta;
      UnpackRoundTrip(track[1..], tick);
      assert Unpack(track, last)[1..] == Unpack(track[1..], tick);
      assert track == [track[0]] + track[1..];
    }
  }

  /** Out of order, the clamp does lose information: an event written after a later one
      reads back at the later tick. */
  lemma ClampMovesLateEvents(a: Event, b: Event, last: int)
    requires last <= a.tick && b.tick < a.tick
    ensures Unpack(Pack([a, b], last), last) == [a, Event(a.tick, b.msg)]
  {
    assert [a, b][1..] == [b];
    assert Pack([a, b], last) == [TrackMsg(a.tick - last, a.msg), TrackMsg(0, b.msg)];
  }
}

=== FILE: render.dfy ===
/** The render driver: the step loop of the scheduler, the final flush, the sort by
    (tick, priority) and the delta packing, with what the written track guarantees. */
module Render {
  import opened Bits
  import opened Rule190
  import opened Events
  import opened Scheduler
  import opened ScheduleProps

  /** The unsorted event list, built by a loop over the steps as the program does, and
      its guarantees: it starts with the tempo event, every other event lies in
      [0, steps*q] with note-ons before steps*q, velocities are in [40, 110] (40 in
      sustain mode), and every note-on is switched off at a later tick. */
  method ScheduleEvents(cfg: Config, scale: seq<int>, row0: Row, steps: nat) returns (events: seq<Event>)
    requires ValidConfig(cfg) && |row0| <= |scale|
    ensures events == Schedule(cfg, scale, row0, steps)
    ensures EventsOk(cfg, events, steps)
    ensures Released(events)
  {
    var st := Start(cfg, row0);
    for s := 0 to steps
      invariant st == Run(cfg, scale, row0, s)
      invariant WellFormed(st, |row0|, scale) && AgesSound(st) && EventsOk(cfg, st.events, s)
      invariant !cfg.staccato ==> Pending(st.events, st.active) && ActiveLive(st.row, st.active, scale)
      invariant cfg.staccato ==> GatedBy(Gate(cfg), st.events)
    {
      var nxt := NextToroidal(st.row);
      StepKeepsAges(cfg, scale, st, nxt, s);
      StepKeepsEventsOk(cfg, scale, st, nxt, s);
      if cfg.staccato {
        StepKeepsGated(cfg, scale, st, nxt, s);
      } else {
        OnsBefore(cfg, st.events, s);
        StepKeepsPending(cfg, scale, st, nxt, s);
        StepKeepsActiveLive(cfg, scale, st, nxt);
      }
      st := Step(cfg, scale, st, nxt, s);
    }
    if cfg.staccato {
      events := st.events;
      GatedReleased(Gate(cfg), events);
    } else {
      events := st.events + Flush(st.active, steps * cfg.q);
      FlushReleases(cfg, st.events, st.active, steps);
      FlushKeepsEventsOk(cfg, st.events, st.active, steps);
    }
  }

  /** Two lists with the same multiset have the same elements. */
  lemma SameElements(a: seq<Event>, b: seq<Event>)
    requires multiset(a) == multiset(b)
    ensures forall e :: e in a <==> e in b
  {
    forall e
      ensures e in a <==> e in b
    {
      assert e in a <==> e in multiset(a);
      assert e in b <==> e in multiset(b);
    }
  }

  /** An event strictly before every other one in (tick, priority) order comes first
      once the list is sorted. */
  lemma SortedStartsWith(sorted: seq<Event>, first: Event)
    requires Sorted(sorted) && first in sorted
    requires forall e :: e in sorted && e != first ==> !KeyLe(e, first)
    ensures sorted[0] == first
  {
    var j :| 0 <= j < |sorted| && sorted[j] == first;
  }

  /** Sorting a list that satisfies EventsOk keeps EventsOk, and the tempo event, the
      only event at tick 0 with the lowest priority, moves to the front. */
  lemma SortedKeepsEventsOk(cfg: Config, events: seq<Event>, sorted: seq<Event>, steps: nat)
    requires ValidConfig(cfg) && EventsOk(cfg, events, steps)
    requires Sorted(sorted) && multiset(sorted) == multiset(events)
    ensures EventsOk(cfg, sorted, steps)
    ensures forall k :: 0 <= k < |sorted| ==> 0 <= sorted[k].tick <= steps * cfg.q
  {
    SameElements(sorted, events);
    assert events[0] in events;
    SortedStartsWith(sorted, TempoEvent(cfg));
    TempoStaysFirst(events, sorted);
  }

  /** Two permutations with the same first element: a tempo message that occurs only
      first in one occurs only first in the other. */
  lemma TempoStaysFirst(events: seq<Event>, sorted: seq<Event>)
    requires multiset(sorted) == multiset(events) && |events| > 0 && sorted[0] == events[0]
    requires forall k :: 1 <= k < |events| ==> !events[k].msg.Tempo?
    ensures forall k :: 1 <= k < |sorted| ==> !sorted[k].msg.Tempo?
  {
    SameTail(sorted, events);
    forall k | 1 <= k < |sorted|
      ensures !sorted[k].msg.Tempo?
    {
      InTail(sorted, events, k);
    }
  }

  /** Removing the same first element from two permutations leaves permutations. */
  lemma SameTail<X>(a: seq<X>, b: seq<X>)
    requires |a| > 0 && |b| > 0 && a[0] == b[0] && multiset(a) == multiset(b)
    ensures multiset(a[1..]) == multiset(b[1..])
  {
    assert a == [a[0]] + a[1..];
    assert b == [b[0]] + b[1..];
    assert multiset(a[1..]) == multiset(a) - multiset{a[0]};
    assert multiset(b[1..]) == multiset(b) - multiset{b[0]};
  }

  /** A later element of `a` is a later element of `b` when their tails are permutations. */
  lemma InTail<X>(a: seq<X>, b: seq<X>, k: int)
    requires 1 <= k < |a| && |b| > 0 && multiset(a[1..]) == multiset(b[1..])
    ensures exists j :: 1 <= j < |b| && b[j] == a[k]
  {
    assert a[1..][k - 1] in multiset(b[1..]);
    var j :| 0 <= j < |b[1..]| && b[1..][j] == a[k];
    assert b[j + 1] == a[k];
  }

  /** Some event after position `k` switches the pitch of the note-on at `k` off, at a
      later tick. */
  predicate SwitchedOffLater(s: seq<Event>, k: int)
    requires 0 <= k < |s| && s[k].msg.NoteOn?
  {
    exists m :: k < m < |s| && s[m].tick > s[k].tick && s[m].msg == NoteOff(s[k].msg.note)
  }

  /** Sorting keeps every note-on's later note-off after it: the note-off has a larger
      tick, so it cannot sort before the note-on. */
  lemma SortedReleased(evs: seq<Event>, sorted: seq<Event>)
    requires Released(evs) && Sorted(sorted) && multiset(sorted) == multiset(evs)
    ensures forall k :: 0 <= k < |sorted| && sorted[k].msg.NoteOn? ==> SwitchedOffLater(sorted, k)
  {
    SameElements(sorted, evs);
    forall k | 0 <= k < |sorted| && sorted[k].msg.NoteOn?
      ensures SwitchedOffLater(sorted, k)
    {
      var t, p, v := sorted[k].tick, sorted[k].msg.note, sorted[k].msg.velocity;
      assert Event(t, NoteOn(p, v)) in evs;
      var u :| u > t && Event(u, NoteOff(p)) in evs;
      var m :| 0 <= m < |sorted| && sorted[m] == Event(u, NoteOff(p));
    }
  }

  /** The written track and the sorted list it encodes: the list is the schedule sorted
      by (tick, priority), a permutation of it, beginning with the tempo event; it reads
      back exactly from the track's deltas (the zero clamp never fires); every event
      lies in [0, steps*q] with the velocities EventsOk promises; and every note-on is
      followed later in the track by a note-off of its pitch at a later tick. */
  method RenderTrack(cfg: Config, scale: seq<int>, row0: Row, steps: nat)
    returns (sorted: seq<Event>, track: seq<TrackMsg>)
    requires ValidConfig(cfg) && |row0| <= |scale|
    ensures track == RenderedTrack(cfg, scale, row0, steps)
    ensures Sorted(sorted) && multiset(sorted) == multiset(Schedule(cfg, scale, row0, steps))
    ensures |sorted| > 0 && sorted[0] == TempoEvent(cfg)
    ensures Unpack(track, 0) == sorted
    ensures forall k :: 0 <= k < |sorted| ==> 0 <= sorted[k].tick <= steps * cfg.q
    ensures EventsOk(cfg, sorted, steps)
    ensures forall k :: 1 <= k < |sorted| ==> !sorted[k].msg.Tempo?
    ensures forall k :: 0 <= k < |sorted| && sorted[k].msg.NoteOn? ==> SwitchedOffLater(sorted, k)
  {
    var events := ScheduleEvents(cfg, scale, row0, steps);
    sorted := SortEvents(events);
    track := Pack(sorted, 0);
    SortedKeepsEventsOk(cfg, events, sorted, steps);
    SortedIsMonotone(sorted, 0);
    PackRoundTrip(sorted, 0);
    SortedReleased(events, sorted);
  }

  /** The staccato events of the program as written for one live cell of width 1 with a
      gate that truncates to 0 ticks (`int(q * gate)` is 0 for gate = 0.001 and
      q = 240): the note-on and its note-off share tick 0. */
  lemma ZeroGateEvents()
    ensures Retrigger([1], [60], [1], 0, 0 + 0, 1) == [Event(0, NoteOn(60, 40)), Event(0, NoteOff(60))]
  {
    assert Retrigger([1], [60], [1], 0, 0, 0) == [];
  }

  /** Sorting the note-on and note-off of one pitch at one tick puts the note-off first. */
  lemma OffSortsBeforeOn(t: int, p: int, v: int)
    ensures SortEvents([Event(t, NoteOn(p, v)), Event(t, NoteOff(p))])
         == [Event(t, NoteOff(p)), Event(t, NoteOn(p, v))]
  {
    var on, off := Event(t, NoteOn(p, v)), Event(t, NoteOff(p));
    assert [on, off][1..] == [off];
    assert [off][1..] == [];
    assert SortEvents([off]) == Insert(off, []) == [off];
    assert Insert(on, [off]) == [off] + Insert(on, []);
  }

  /** With the tempo event in front, the note-off still sorts before the note-on. */
  lemma OffSortsFirst()
    ensures SortEvents([Event(0, Tempo(500000)), Event(0, NoteOn(60, 40)), Event(0, NoteOff(60))])
         == [Event(0, Tempo(500000)), Event(0, NoteOff(60)), Event(0, NoteOn(60, 40))]
  {
    var t, on, off := Event(0, Tempo(500000)), Event(0, NoteOn(60, 40)), Event(0, NoteOff(60));
    OffSortsBeforeOn(0, 60, 40);
    assert [t, on, off][1..] == [on, off];
    assert Insert(t, [off, on]) == [t, off, on];
  }

  /** The program as written, with a zero-tick gate: the sorted list ends with a note-on
      that nothing after it switches off, so the note hangs. */
  lemma ZeroGateHangs()
    ensures var sorted := SortEvents([Event(0, Tempo(500000))] + Retrigger([1], [60], [1], 0, 0 + 0, 1));
      |sorted| == 3 && sorted[2] == Event(0, NoteOn(60, 40)) && !SwitchedOffLater(sorted, 2)
  {
    var t, on, off := Event(0, Tempo(500000)), Event(0, NoteOn(60, 40)), Event(0, NoteOff(60));
    ZeroGateEvents();
    var evs := [t] + Retrigger([1], [60], [1], 0, 0 + 0, 1);
    assert evs == [t, on, off];
    OffSortsFirst();
    var sorted := SortEvents(evs);
    assert sorted == [t, off, on];
    assert !SwitchedOffLater(sorted, 2);
  }
}

=== FILE: rule190.dfy ===
/** The Rule 190 elementary cellular automaton and its two boundary variants. */
module Rule190 {
  import opened Bits
  import opened Arith

  type Row = seq<Bit>

  /** The neighbourhood key `(l << 2) | (c << 1) | r`; on 0/1 cells the shifts and the
      bitwise or are the sum below. */
  function Key(l: Bit, c: Bit, r: Bit): (k: int)
    ensures 0 <= k < 8
  {
    4 * l + 2 * c + r
  }

  /** Rule 190 as a lookup table from neighbourhood key to next state. */
  const RULE190: map<int, Bit> :=
    map[7 := 1, 6 := 0, 5 := 1, 4 := 1, 3 := 1, 2 := 1, 1 := 1, 0 := 0]

  /** Bit `k` of a Wolfram rule number: the next state for neighbourhood key `k`. */
  function WolframBit(rule: nat, k: nat): Bit
  {
    (rule / Pow2(k)) % 2
  }

  /** The table holds exactly the eight keys, and entry `k` is bit `k` of 190. */
  lemma TableIsRule190()
    ensures forall k :: k in RULE190 <==> 0 <= k < 8
    ensures forall k :: 0 <= k < 8 ==> RULE190[k] == WolframBit(190, k)
  {
    assert Pow2(1) == 2 && Pow2(2) == 4 && Pow2(3) == 8 && Pow2(4) == 16;
    assert Pow2(5) == 32 && Pow2(6) == 64 && Pow2(7) == 128;
  }

  /** Rule 190 kills a cell exactly on the neighbourhoods 000 and 110. */
  predicate Dies(l: Bit, c: Bit, r: Bit)
  {
    (l == 0 && c == 0 && r == 0) || (l == 1 && c == 1 && r == 0)
  }

  /** One table lookup: the next state is 0 exactly when the neighbourhood kills the cell. */
  function Apply(l: Bit, c: Bit, r: Bit): (b: Bit)
    ensures b == 0 <==> Dies(l, c, r)
  {
    RULE190[Key(l, c, r)]
  }

  /** The left neighbour of cell `i` under wrap-around: cell i-1, or cell W-1 for cell 0. */
  function LeftWrap(row: Row, i: int): Bit
    requires 0 <= i < |row|
  {
    if i > 0 then row[i - 1] else row[|row| - 1]
  }

  /** The right neighbour of cell `i` under wrap-around: cell i+1, or cell 0 for cell W-1. */
  function RightWrap(row: Row, i: int): Bit
    requires 0 <= i < |row|
  {
    if i < |row| - 1 then row[i + 1] else row[0]
  }

  /** The wrapped neighbours are the cells the program reads, `row[(i - 1) % W]` and
      `row[(i + 1) % W]`; for a positive W, Dafny's `%` agrees with Python's. */
  lemma WrapIsModulo(row: Row, i: int)
    requires 0 <= i < |row|
    ensures LeftWrap(row, i) == row[(i - 1) % |row|]
    ensures RightWrap(row, i) == row[(i + 1) % |row|]
  {
    var w := |row|;
    if i > 0 {
      ModUnique(i - 1, 0, i - 1, w);
    } else {
      ModUnique(-1, -1, w - 1, w);
    }
    if i < w - 1 {
      ModUnique(i + 1, 0, i + 1, w);
    } else {
      ModUnique(w, 1, 0, w);
    }
  }

  /** The left neighbour of cell `i` under the fixed-zero boundary. */
  function LeftZero(row: Row, i: int): Bit
    requires 0 <= i < |row|
  {
    if i > 0 then row[i - 1] else 0
  }

  /** The right neighbour of cell `i` under the fixed-zero boundary. */
  function RightZero(row: Row, i: int): Bit
    requires 0 <= i < |row|
  {
    if i < |row| - 1 then row[i + 1] else 0
  }

  /** One step with wrap-around neighbours: cell `i` of the result is 0 exactly when the
      neighbourhood (cell i-1 mod W, cell i, cell i+1 mod W) kills it. */
  function NextToroidal(row: Row): (next: Row)
    ensures |next| == |row|
    ensures forall i {:trigger next[i]} :: 0 <= i < |row| ==>
      (next[i] == 0 <==> Dies(LeftWrap(row, i), row[i], RightWrap(row, i)))
  {
    seq(|row|, i requires 0 <= i < |row| => Apply(LeftWrap(row, i), row[i], RightWrap(row, i)))
  }

  /** One step where the neighbours outside the row read as 0. */
  function NextFixed0(row: Row): (next: Row)
    ensures |next| == |row|
    ensures forall i {:trigger next[i]} :: 0 <= i < |row| ==>
      (next[i] == 0 <==> Dies(LeftZero(row, i), row[i], RightZero(row, i)))
  {
    seq(|row|, i requires 0 <= i < |row| => Apply(LeftZero(row, i), row[i], RightZero(row, i)))
  }

  /** The index `i + k` taken around the ring of `w` cells, for `0 <= i, k < w`. */
  function Around(i: int, k: int, w: int): (j: int)
    requires 0 <= i < w && 0 <= k < w
    ensures 0 <= j < w
  {
    if i + k < w then i + k else i + k - w
  }

  /** The row rotated left by `k` places: cell `i` of the result is cell `i + k` of `row`,
      counted around the ring. */
  function Rotate(row: Row, k: int): (r: Row)
    requires 0 <= k < |row|
    ensures |r| == |row|
  {
    seq(|row|, i requires 0 <= i < |row| => row[Around(i, k, |row|)])
  }

  /** The wrapped neighbours of cell `i` of the rotated row are the wrapped neighbours of
      cell `i + k` of the original row. */
  lemma RotatedNeighbours(row: Row, k: int, i: int)
    requires 0 <= k < |row| && 0 <= i < |row|
    ensures Rotate(row, k)[i] == row[Around(i, k, |row|)]
    ensures LeftWrap(Rotate(row, k), i) == LeftWrap(row, Around(i, k, |row|))
    ensures RightWrap(Rotate(row, k), i) == RightWrap(row, Around(i, k, |row|))
  {
    var w := |row|;
    if i > 0 {
      assert Rotate(row, k)[i - 1] == row[Around(i - 1, k, w)];
    } else {
      assert Rotate(row, k)[w - 1] == row[Around(w - 1, k, w)];
    }
    if i < w - 1 {
      assert Rotate(row, k)[i + 1] == row[Around(i + 1, k, w)];
    } else {
      assert Rotate(row, k)[0] == row[Around(0, k, w)];
    }
  }

  /** The toroidal rule is translation-equivariant: rotating the input by `k` places
      rotates the output by `k` places. */
  lemma RotationEquivariant(row: Row, k: int)
    requires 0 <= k < |row|
    ensures NextToroidal(Rotate(row, k)) == Rotate(NextToroidal(row), k)
  {
    var rot := Rotate(row, k);
    var next := NextToroidal(row);
    var a := NextToroidal(rot);
    var b := Rotate(next, k);
    forall i | 0 <= i < |row|
      ensures a[i] == b[i]
    {
      var j := Around(i, k, |row|);
      RotatedNeighbours(row, k, i);
      assert b[i] == next[j];
    }
  }

  /** Cell `i + 1` of the padded row sees the fixed-zero neighbourhood of cell `i`. */
  lemma PaddedNeighbours(row: Row, i: int)
    requires 0 <= i < |row|
    ensures ([0] + row + [0])[i + 1] == row[i]
    ensures LeftWrap([0] + row + [0], i + 1) == LeftZero(row, i)
    ensures RightWrap([0] + row + [0], i + 1) == RightZero(row, i)
  {
  }

  /** The fixed-zero step is the toroidal step of the row padded with one 0 on each side,
      restricted to the original cells: out-of-range neighbours never wrap. */
  lemma Fixed0IsPaddedToroidal(row: Row)
    ensures NextFixed0(row) == NextToroidal([0] + row + [0])[1..|row| + 1]
  {
    var t := NextToroidal([0] + row + [0]);
    var inner := t[1..|row| + 1];
    forall i | 0 <= i < |row|
      ensures NextFixed0(row)[i] == inner[i]
    {
      PaddedNeighbours(row, i);
      assert inner[i] == t[i + 1];
    }
  }

  /** The all-zero row is a fixed point of the fixed-zero step. */
  lemma Fixed0KeepsZeroRow(w: nat)
    ensures NextFixed0(Zeros(w)) == Zeros(w)
  {
    assert WolframBit(190, 0) == 0;
  }
}

=== FILE: scale.dfy ===
/** The pitch pool: one MIDI note per cell, stacking a scale octave by octave. */
module Scale {
  import opened Arith

  /** The natural-minor scale degrees in semitones above the root. */
  const NAT_MINOR_STEPS: seq<int> := [0, 2, 3, 5, 7, 8, 10]

  /** Reference definition: position `i` of the pool lies in octave `i / K` and takes scale
      degree `i % K`, for a scale of K degrees. */
  function ScaleNote(root: int, steps: seq<int>, i: nat): int
    requires |steps| > 0
  {
    root + 12 * (i / |steps|) + steps[i % |steps|]
  }

  /** Stacks `root + 12 * octave + d` for the degrees `d` of `steps`, octave after octave,
      stopping as soon as `width` pitches are collected. `spanOctaves` is accepted and
      ignored, as in the program. With no degrees and a positive width the program never
      terminates, so that combination is excluded. */
  method BuildScaleAcrossWidth(width: int, root: int, steps: seq<int>, spanOctaves: int)
    returns (pool: seq<int>)
    requires |steps| > 0 || width <= 0
    ensures |pool| == if width > 0 then width else 0
    ensures forall i :: 0 <= i < |pool| ==> pool[i] == ScaleNote(root, steps, i)
  {
    pool := [];
    var octv := 0;
    while |pool| < width
      invariant octv >= 0
      invariant |pool| <= width || |pool| == 0
      invariant |pool| < width ==> |pool| == octv * |steps|
      invariant forall i :: 0 <= i < |pool| ==> pool[i] == ScaleNote(root, steps, i)
      decreases width - |pool|
    {
      ghost var start := |pool|;
      for j := 0 to |steps|
        invariant |pool| == start + j && |pool| < width
        invariant forall i :: 0 <= i < |pool| ==> pool[i] == ScaleNote(root, steps, i)
      {
        DivModUnique(start + j, octv, j, |steps|);
        pool := pool + [root + 12 * octv + steps[j]];
        if |pool| == width {
          break;
        }
      }
      octv := octv + 1;
    }
  }

  /** Moving K places along the pool raises the pitch by exactly one octave. */
  lemma OctaveShift(root: int, steps: seq<int>, i: nat)
    requires |steps| > 0
    ensures ScaleNote(root, steps, i + |steps|) == ScaleNote(root, steps, i) + 12
  {
    var k := |steps|;
    DivModUnique(i + k, i / k + 1, i % k, k);
  }

  /** Degrees that rise strictly inside one octave. */
  predicate OctaveDegrees(steps: seq<int>)
  {
    |steps| > 0 && 0 <= steps[0] && steps[|steps| - 1] < 12 &&
    forall a, b :: 0 <= a < b < |steps| ==> steps[a] < steps[b]
  }

  /** With such degrees the pool rises strictly, so distinct cells get distinct pitches. */
  lemma ScaleIncreasing(root: int, steps: seq<int>, i: nat, j: nat)
    requires OctaveDegrees(steps) && i < j
    ensures ScaleNote(root, steps, i) < ScaleNote(root, steps, j)
  {
    var k := |steps|;
    DivMonotone(i, j, k);
    if i / k == j / k {
      assert i % k < j % k;
    } else {
      assert steps[0] <= steps[j % k] && steps[i % k] <= steps[k - 1];
    }
  }

  /** The natural-minor degrees qualify. */
  lemma NatMinorIsOctaveDegrees()
    ensures OctaveDegrees(NAT_MINOR_STEPS)
  {
  }
}

=== FILE: schedule_props.dfy ===
/** Invariants one scheduler step preserves, stated on an arbitrary state and an arbitrary
    next row: none of them depends on the automaton rule. */
module ScheduleProps {
  import opened Bits
  import opened Rule190
  import opened Events
  import opened Scheduler

  /** Ages are never negative, and a dead cell has age 0. */
  predicate AgesSound(st: State)
  {
    forall i :: 0 <= i < |st.row| && i < |st.age| ==>
      0 <= st.age[i] && (st.row[i] == 0 ==> st.age[i] == 0)
  }

  /** The age update of one step in either mode: a live cell's age is positive and a dead
      cell's is 0; a surviving cell ages by one and a born cell starts at 1. */
  lemma AgeUpdate(row: Row, nxt: Row, age: seq<int>, staccato: bool)
    requires |nxt| == |row| == |age|
    requires forall i :: 0 <= i < |row| ==> 0 <= age[i] && (row[i] == 0 ==> age[i] == 0)
    ensures var a := NextAges(row, nxt, age, staccato);
      (forall i {:trigger a[i]} :: 0 <= i < |a| ==> 0 <= a[i] && (a[i] > 0 <==> nxt[i] == 1)) &&
      (forall i {:trigger a[i]} :: 0 <= i < |a| && row[i] == 1 && nxt[i] == 1 ==> a[i] == age[i] + 1) &&
      (forall i {:trigger a[i]} :: 0 <= i < |a| && row[i] == 0 && nxt[i] == 1 ==> a[i] == 1)
  {
  }

  /** A step keeps ages sound, and afterwards a cell's age is positive exactly when the
      cell is alive. */
  lemma StepKeepsAges(cfg: Config, scale: seq<int>, st: State, nxt: Row, s: nat)
    requires ValidConfig(cfg) && WellFormed(st, |st.row|, scale) && |nxt| == |st.row| && AgesSound(st)
    ensures var r := Step(cfg, scale, st, nxt, s);
      AgesSound(r) && forall i :: 0 <= i < |r.row| ==> (r.age[i] > 0 <==> r.row[i] == 1)
  {
    AgeUpdate(st.row, nxt, st.age, cfg.staccato);
  }

  /** Note-ons for cells of one common age `a` all carry velocity `Velocity(a)`. */
  lemma {:induction false} OnsAtAge(idxs: seq<int>, scale: seq<int>, age: seq<int>, tick: int, a: int)
    requires forall k :: 0 <= k < |idxs| ==> 0 <= idxs[k] < |scale| && idxs[k] < |age| && age[idxs[k]] == a
    ensures forall e :: e in Ons(idxs, scale, age, tick) ==> e.msg.velocity == Velocity(a)
    decreases |idxs|
  {
    if |idxs| > 0 {
      OnsAtAge(idxs[1..], scale, age, tick, a);
    }
  }

  /** Re-triggered notes of live cells with positive ages have velocities in [40, 110]. */
  lemma {:induction false} RetriggerVelocities(nxt: Row, scale: seq<int>, age: seq<int>, base: int, off: int, n: nat)
    requires n <= |nxt| && n <= |scale| && n <= |age|
    requires forall i :: 0 <= i < n && nxt[i] == 1 ==> age[i] >= 1
    ensures forall e :: e in Retrigger(nxt, scale, age, base, off, n) && e.msg.NoteOn? ==>
      40 <= e.msg.velocity <= 110
    decreases n
  {
    if n > 0 {
      RetriggerVelocities(nxt, scale, age, base, off, n - 1);
    }
  }

  // ---------------------------------------------------------------------------------
  // The shape of one step's output

  /** Note-ons of newborn cells (age 1) all have velocity 40, and every born pitch has
      one. */
  lemma BornOns(births: seq<int>, scale: seq<int>, age: seq<int>, tick: int)
    requires forall k :: 0 <= k < |births| ==> 0 <= births[k] < |scale| && births[k] < |age| && age[births[k]] == 1
    ensures forall e :: e in Ons(births, scale, age, tick) ==>
      e.tick == tick && e.msg.NoteOn? && e.msg.note in Pitches(births, scale) && e.msg.velocity == 40
    ensures forall p :: p in Pitches(births, scale) ==> Event(tick, NoteOn(p, 40)) in Ons(births, scale, age, tick)
  {
    OnsAtAge(births, scale, age, tick, 1);
    forall p | p in Pitches(births, scale)
      ensures Event(tick, NoteOn(p, 40)) in Ons(births, scale, age, tick)
    {
      var k :| 0 <= k < |births| && scale[births[k]] == p;
      assert Event(tick, NoteOn(p, Velocity(age[births[k]]))) in Ons(births, scale, age, tick);
    }
  }

  /** One sustain step in abstract terms: the note-offs `offs` at tick n*q release the
      dying sounding pitches `dead`, the note-ons `ons` at n*q start the born pitches
      `born` at velocity 40, and the sounding set loses the dying and gains the born. */
  lemma SustainShape(cfg: Config, scale: seq<int>, st: State, nxt: Row, n: nat)
    returns (offs: seq<Event>, ons: seq<Event>, dead: set<int>, born: set<int>)
    requires ValidConfig(cfg) && WellFormed(st, |st.row|, scale) && |nxt| == |st.row|
    requires AgesSound(st) && !cfg.staccato
    ensures Emitted(cfg, scale, st, nxt, n) == offs + ons
    ensures dead == Pitches(Deaths(st, nxt), scale) && born == Pitches(Births(st, nxt), scale)
    ensures NextActive(cfg, scale, st, nxt) == (st.active - dead) + born
    ensures forall e :: e in offs ==>
      e.tick == n * cfg.q && e.msg.NoteOff? && e.msg.note in st.active && e.msg.note in dead
    ensures forall p :: p in st.active && p in dead ==> Event(n * cfg.q, NoteOff(p)) in offs
    ensures forall i, j :: 0 <= i < j < |offs| ==> offs[i].msg.note != offs[j].msg.note
    ensures forall e :: e in ons ==>
      e.tick == n * cfg.q && e.msg.NoteOn? && e.msg.note in born && e.msg.velocity == 40
    ensures forall p :: p in born ==> Event(n * cfg.q, NoteOn(p, 40)) in ons
  {
    var base := n * cfg.q;
    var deaths, births := Deaths(st, nxt), Births(st, nxt);
    var age := StepAges(cfg, st, nxt);
    offs := Offs(deaths, scale, st.active, base).0;
    ons := Ons(births, scale, age, base);
    dead := Pitches(deaths, scale);
    born := Pitches(births, scale);
    SustainParts(cfg, scale, st, nxt, n);
    assert forall k :: 0 <= k < |births| ==> age[births[k]] == 1 by {
      AgeUpdate(st.row, nxt, st.age, false);
    }
    BornOns(births, scale, age, base);
  }

  /** The events and sounding set of a sustain step, spelled out: the definitions of
      Emitted and NextActive unfolded for sustain mode, kept apart so that the larger
      proofs see only these two equations. */
  lemma SustainParts(cfg: Config, scale: seq<int>, st: State, nxt: Row, n: nat)
    requires ValidConfig(cfg) && WellFormed(st, |st.row|, scale) && |nxt| == |st.row| && !cfg.staccato
    ensures Emitted(cfg, scale, st, nxt, n)
         == Offs(Deaths(st, nxt), scale, st.active, n * cfg.q).0
          + Ons(Births(st, nxt), scale, StepAges(cfg, st, nxt), n * cfg.q)
    ensures NextActive(cfg, scale, st, nxt)
         == (st.active - Pitches(Deaths(st, nxt), scale)) + Pitches(Births(st, nxt), scale)
  {
  }

  /** Every note-on in `evs` has a note-off of its pitch `g` ticks later. */
  ghost predicate GatedBy(g: int, evs: seq<Event>)
  {
    forall t, p, v :: Event(t, NoteOn(p, v)) in evs ==> Event(t + g, NoteOff(p)) in evs
  }

  /** The shape of one staccato step's events: note-ons at `base` with velocities in
      [40, 110] and note-offs at `base + g`. */
  predicate RetriggerStep(base: int, g: int, evs: seq<Event>)
  {
    forall e :: e in evs ==>
      (e.tick == base && e.msg.NoteOn? && 40 <= e.msg.velocity <= 110) ||
      (e.tick == base + g && e.msg.NoteOff?)
  }

  /** Re-triggered events of live cells with positive ages have the staccato shape, and
      every note-on among them is gated. */
  lemma RetriggerShape(nxt: Row, scale: seq<int>, age: seq<int>, base: int, g: int, n: nat)
    requires n <= |nxt| && n <= |scale| && n <= |age|
    requires forall i :: 0 <= i < n && nxt[i] == 1 ==> age[i] >= 1
    ensures RetriggerStep(base, g, Retrigger(nxt, scale, age, base, base + g, n))
    ensures GatedBy(g, Retrigger(nxt, scale, age, base, base + g, n))
  {
    RetriggerVelocities(nxt, scale, age, base, base + g, n);
  }

  /** One staccato step in abstract terms. */
  lemma StaccatoShape(cfg: Config, scale: seq<int>, st: State, nxt: Row, n: nat)
    requires ValidConfig(cfg) && WellFormed(st, |st.row|, scale) && |nxt| == |st.row|
    requires AgesSound(st) && cfg.staccato
    ensures RetriggerStep(n * cfg.q, Gate(cfg), Emitted(cfg, scale, st, nxt, n))
    ensures GatedBy(Gate(cfg), Emitted(cfg, scale, st, nxt, n))
    ensures NextActive(cfg, scale, st, nxt) == st.active
  {
    var base, g := n * cfg.q, Gate(cfg);
    var age := StepAges(cfg, st, nxt);
    StaccatoParts(cfg, scale, st, nxt, n);
    assert forall i :: 0 <= i < |st.row| && nxt[i] == 1 ==> age[i] >= 1 by {
      AgeUpdate(st.row, nxt, st.age, true);
    }
    RetriggerShape(nxt, scale, age, base, g, |st.row|);
    var evs := Retrigger(nxt, scale, age, base, base + g, |st.row|);
    assert Emitted(cfg, scale, st, nxt, n) == evs;
  }

  /** The events and sounding set of a staccato step, spelled out: the definitions of
      Emitted and NextActive unfolded for staccato mode. */
  lemma StaccatoParts(cfg: Config, scale: seq<int>, st: State, nxt: Row, n: nat)
    requires ValidConfig(cfg) && WellFormed(st, |st.row|, scale) && |nxt| == |st.row| && cfg.staccato
    ensures Emitted(cfg, scale, st, nxt, n)
         == Retrigger(nxt, scale, StepAges(cfg, st, nxt), n * cfg.q, n * cfg.q + Gate(cfg), |st.row|)
    ensures NextActive(cfg, scale, st, nxt) == st.active
  {
  }

  // ---------------------------------------------------------------------------------
  // Ticks and velocities

  /** The tempo meta message the schedule starts with. */
  function TempoEvent(cfg: Config): Event
  {
    Event(0, Tempo(cfg.tempo))
  }

  /** After `n` steps: the list starts with the tempo event, and no later event is a
      tempo message; every other event lies in [0, n*q], every note-on before n*q; note-ons
      carry a velocity in [40, 110], exactly 40 in sustain mode. */
  predicate EventsOk(cfg: Config, evs: seq<Event>, n: nat)
  {
    |evs| > 0 && evs[0] == TempoEvent(cfg) &&
    (forall k :: 1 <= k < |evs| ==> !evs[k].msg.Tempo?) &&
    forall e :: e in evs ==>
      e == TempoEvent(cfg) ||
      (!e.msg.Tempo? && 0 <= e.tick <= n * cfg.q &&
       (e.msg.NoteOn? ==> e.tick < n * cfg.q && 40 <= e.msg.velocity <= 110 &&
                          (!cfg.staccato ==> e.msg.velocity == 40)))
  }

  /** What step `n` appends: no tempo message, ticks in [n*q, (n+1)*q], note-ons before
      (n+1)*q, and the velocities EventsOk promises. */
  predicate StepEventsOk(cfg: Config, evs: seq<Event>, n: nat)
  {
    forall e :: e in evs ==>
      !e.msg.Tempo? && n * cfg.q <= e.tick <= n * cfg.q + cfg.q &&
      (e.msg.NoteOn? ==> e.tick < n * cfg.q + cfg.q && 40 <= e.msg.velocity <= 110 &&
                         (!cfg.staccato ==> e.msg.velocity == 40))
  }

  lemma AppendEventsOk(cfg: Config, evs: seq<Event>, more: seq<Event>, n: nat)
    requires ValidConfig(cfg) && EventsOk(cfg, evs, n) && StepEventsOk(cfg, more, n)
    ensures EventsOk(cfg, evs + more, n + 1)
  {
    assert (n + 1) * cfg.q == n * cfg.q + cfg.q;
    assert (evs + more)[0] == evs[0];
  }

  lemma EmittedOk(cfg: Config, scale: seq<int>, st: State, nxt: Row, n: nat)
    requires ValidConfig(cfg) && WellFormed(st, |st.row|, scale) && |nxt| == |st.row| && AgesSound(st)
    ensures StepEventsOk(cfg, Emitted(cfg, scale, st, nxt, n), n)
  {
    if cfg.staccato {
      StaccatoShape(cfg, scale, st, nxt, n);
    } else {
      var offs, ons, dead, born := SustainShape(cfg, scale, st, nxt, n);
    }
  }

  /** A step keeps EventsOk, one step further on. */
  lemma StepKeepsEventsOk(cfg: Config, scale: seq<int>, st: State, nxt: Row, n: nat)
    requires ValidConfig(cfg) && WellFormed(st, |st.row|, scale) && |nxt| == |st.row| && AgesSound(st)
    requires EventsOk(cfg, st.events, n)
    ensures EventsOk(cfg, Step(cfg, scale, st, nxt, n).events, n + 1)
  {
    EmittedOk(cfg, scale, st, nxt, n);
    AppendEventsOk(cfg, st.events, Emitted(cfg, scale, st, nxt, n), n);
  }

  // ---------------------------------------------------------------------------------
  // Releasing notes

  /** Pitch `p` is switched off at some tick after `t`. */
  ghost predicate OffAfter(evs: seq<Event>, p: int, t: int)
  {
    exists u :: u > t && Event(u, NoteOff(p)) in evs
  }

  /** Every note-on is released later. */
  ghost predicate Released(evs: seq<Event>)
  {
    forall t, p, v :: Event(t, NoteOn(p, v)) in evs ==> OffAfter(evs, p, t)
  }

  /** Sustain bookkeeping: every note-on is still sounding or released later. */
  ghost predicate Pending(evs: seq<Event>, active: set<int>)
  {
    forall t, p, v :: Event(t, NoteOn(p, v)) in evs ==> p in active || OffAfter(evs, p, t)
  }

  /** Appending note-offs `offs` that release the dying sounding pitches `dead` and
      note-ons `ons` of the born pitches `born`, all at a tick later than every earlier
      note-on, keeps every note-on pending or released. */
  lemma PendingAppend(evs: seq<Event>, active: set<int>, offs: seq<Event>, ons: seq<Event>,
                      dead: set<int>, born: set<int>, base: int)
    requires Pending(evs, active)
    requires forall t, p, v :: Event(t, NoteOn(p, v)) in evs ==> t < base
    requires forall e :: e in offs ==> e.msg.NoteOff?
    requires forall p :: p in active && p in dead ==> Event(base, NoteOff(p)) in offs
    requires forall e :: e in ons ==> e.msg.NoteOn? && e.msg.note in born
    ensures Pending(evs + offs + ons, (active - dead) + born)
  {
    var all := evs + offs + ons;
    forall t, p, v | Event(t, NoteOn(p, v)) in all
      ensures p in (active - dead) + born || OffAfter(all, p, t)
    {
      var e := Event(t, NoteOn(p, v));
      if e in ons {
        assert p in born;
      } else {
        assert e in evs;
        if p in active && p in dead {
          assert Event(base, NoteOff(p)) in all;
        } else if p !in active {
          var u :| u > t && Event(u, NoteOff(p)) in evs;
          assert Event(u, NoteOff(p)) in all;
        }
      }
    }
  }

  /** Before step n every note-on lies before tick n*q. */
  lemma OnsBefore(cfg: Config, evs: seq<Event>, n: nat)
    requires EventsOk(cfg, evs, n)
    ensures forall t, p, v :: Event(t, NoteOn(p, v)) in evs ==> t < n * cfg.q
  {
  }

  /** A sustain step keeps every note-on pending or released. */
  lemma StepKeepsPending(cfg: Config, scale: seq<int>, st: State, nxt: Row, n: nat)
    requires ValidConfig(cfg) && WellFormed(st, |st.row|, scale) && |nxt| == |st.row|
    requires AgesSound(st) && !cfg.staccato
    requires forall t, p, v :: Event(t, NoteOn(p, v)) in st.events ==> t < n * cfg.q
    requires Pending(st.events, st.active)
    ensures var r := Step(cfg, scale, st, nxt, n); Pending(r.events, r.active)
  {
    var offs, ons, dead, born := SustainShape(cfg, scale, st, nxt, n);
    PendingAppend(st.events, st.active, offs, ons, dead, born, n * cfg.q);
    assert st.events + (offs + ons) == st.events + offs + ons;
  }

  /** The final flush at tick n*q releases every sounding pitch after all its note-ons. */
  lemma FlushReleases(cfg: Config, evs: seq<Event>, active: set<int>, n: nat)
    requires EventsOk(cfg, evs, n) && Pending(evs, active)
    ensures Released(evs + Flush(active, n * cfg.q))
  {
    var all := evs + Flush(active, n * cfg.q);
    OnsBefore(cfg, evs, n);
    forall t, p, v | Event(t, NoteOn(p, v)) in all
      ensures OffAfter(all, p, t)
    {
      assert Event(t, NoteOn(p, v)) in evs;
      if p in active {
        assert Event(n * cfg.q, NoteOff(p)) in all;
      } else {
        var u :| u > t && Event(u, NoteOff(p)) in evs;
        assert Event(u, NoteOff(p)) in all;
      }
    }
  }

  /** The flush adds note-offs at tick n*q only, so the bounds of EventsOk still hold. */
  lemma FlushKeepsEventsOk(cfg: Config, evs: seq<Event>, active: set<int>, n: nat)
    requires ValidConfig(cfg) && EventsOk(cfg, evs, n)
    ensures EventsOk(cfg, evs + Flush(active, n * cfg.q), n)
  {
    var all := evs + Flush(active, n * cfg.q);
    assert all[0] == evs[0];
    forall e | e in all
      ensures e == TempoEvent(cfg) || (!e.msg.Tempo? && 0 <= e.tick <= n * cfg.q && !e.msg.NoteOn?) || e in evs
    {
    }
  }

  /** Appending gated events keeps every note-on gated. */
  lemma GatedAppend(g: int, evs: seq<Event>, more: seq<Event>)
    requires GatedBy(g, evs) && GatedBy(g, more)
    ensures GatedBy(g, evs + more)
  {
    forall t, p, v | Event(t, NoteOn(p, v)) in evs + more
      ensures Event(t + g, NoteOff(p)) in evs + more
    {
      if Event(t, NoteOn(p, v)) in evs {
        assert Event(t + g, NoteOff(p)) in evs;
      } else {
        assert Event(t + g, NoteOff(p)) in more;
      }
    }
  }

  /** A staccato step keeps every note-on gated. */
  lemma StepKeepsGated(cfg: Config, scale: seq<int>, st: State, nxt: Row, n: nat)
    requires ValidConfig(cfg) && WellFormed(st, |st.row|, scale) && |nxt| == |st.row|
    requires AgesSound(st) && cfg.staccato
    requires GatedBy(Gate(cfg), st.events)
    ensures GatedBy(Gate(cfg), Step(cfg, scale, st, nxt, n).events)
  {
    StaccatoShape(cfg, scale, st, nxt, n);
    GatedAppend(Gate(cfg), st.events, Emitted(cfg, scale, st, nxt, n));
  }

  /** With a positive gate every gated note-on is released later. */
  lemma GatedReleased(g: int, evs: seq<Event>)
    requires g > 0 && GatedBy(g, evs)
    ensures Released(evs)
  {
    forall t, p, v | Event(t, NoteOn(p, v)) in evs
      ensures OffAfter(evs, p, t)
    {
      assert Event(t + g, NoteOff(p)) in evs;
    }
  }

  // ---------------------------------------------------------------------------------
  // Sounding pitches

  /** Sounding pitches belong to live cells of `row`. */
  predicate ActiveLive(row: Row, active: set<int>, scale: seq<int>)
  {
    forall p :: p in active ==> exists i :: 0 <= i < |row| && i < |scale| && row[i] == 1 && scale[i] == p
  }

  /** A sustain step keeps sounding pitches on live cells: a dying cell's pitch is
      released and a born cell's pitch starts. */
  lemma StepKeepsActiveLive(cfg: Config, scale: seq<int>, st: State, nxt: Row)
    requires WellFormed(st, |st.row|, scale) && |nxt| == |st.row| && !cfg.staccato
    requires ActiveLive(st.row, st.active, scale)
    ensures ActiveLive(nxt, NextActive(cfg, scale, st, nxt), scale)
  {
    var deaths, births := Deaths(st, nxt), Births(st, nxt);
    forall p | p in NextActive(cfg, scale, st, nxt)
      ensures exists i :: 0 <= i < |nxt| && i < |scale| && nxt[i] == 1 && scale[i] == p
    {
      if p in Pitches(births, scale) {
        var k :| 0 <= k < |births| && scale[births[k]] == p;
        assert nxt[births[k]] == 1;
      } else {
        assert p in st.active && p !in Pitches(deaths, scale);
        var i :| 0 <= i < |st.row| && i < |scale| && st.row[i] == 1 && scale[i] == p;
        assert nxt[i] == 1;
      }
    }
  }
}

=== FILE: scheduler.dfy ===
/** The event scheduler: a fold over automaton steps carrying the current row, the per-cell
    ages, the set of sounding pitches and the events emitted so far. */
module Scheduler {
  import opened Bits
  import opened Rule190
  import opened Events

  /** The render settings the scheduler reads. `tempo` is the tempo in microseconds per
      beat, `q` the ticks per automaton step; `staccato` selects the re-triggering mode and
      `gateTicks` is the integral gate length inside a step. */
  datatype Config = Config(tempo: int, q: int, staccato: bool, gateTicks: int)

  predicate ValidConfig(cfg: Config)
  {
    cfg.q > 0 && 0 <= cfg.gateTicks < cfg.q
  }

  datatype State = State(row: Row, age: seq<int>, active: set<int>, events: seq<Event>)

  /** Rows and ages of the program's width, with a pitch for every cell. */
  predicate WellFormed(st: State, w: nat, scale: seq<int>)
  {
    |st.row| == w && |st.age| == w && w <= |scale|
  }

  /** The velocity of a note whose cell has been alive for `age` steps. */
  function Velocity(age: int): (v: int)
    ensures v <= 110 && v <= 30 + 10 * age
    ensures age >= 1 ==> 40 <= v
    ensures v == 110 || v == 30 + 10 * age
  {
    if 30 + 10 * age < 110 then 30 + 10 * age else 110
  }

  /** The ticks from a staccato note-on to its note-off: the configured `gateTicks`, but
      at least one tick, so that the note-off never shares its note-on's tick (the
      program as written allows 0 there; README.md, "Findings"). */
  function Gate(cfg: Config): (g: int)
    requires ValidConfig(cfg)
    ensures 1 <= g <= cfg.q
    ensures cfg.gateTicks > 0 ==> g == cfg.gateTicks
  {
    if cfg.gateTicks == 0 then 1 else cfg.gateTicks
  }

  /** The sustain-mode age update: 1 on birth, +1 on survival, 0 on death, else unchanged. */
  function SustainAge(was: Bit, now: Bit, a: int): int
  {
    if now == 1 && was == 0 then 1
    else if now == 1 then a + 1
    else if was == 1 then 0
    else a
  }

  /** The staccato-mode age update: +1 on survival, 1 on birth, 0 for every dead cell. */
  function StaccatoAge(was: Bit, now: Bit, a: int): int
  {
    if now == 1 then (if was == 1 then a + 1 else 1) else 0
  }

  function NextAges(row: Row, nxt: Row, age: seq<int>, staccato: bool): (r: seq<int>)
    requires |nxt| == |row| == |age|
    ensures |r| == |row|
  {
    seq(|row|, i requires 0 <= i < |row| =>
      if staccato then StaccatoAge(row[i], nxt[i], age[i]) else SustainAge(row[i], nxt[i], age[i]))
  }

  /** The indices below `n`, in increasing order, of the cells that go from `from` to `to`. */
  function Changed(row: Row, nxt: Row, n: nat, from: Bit, to: Bit): (r: seq<int>)
    requires n <= |row| == |nxt|
    ensures forall k :: 0 <= k < |r| ==> 0 <= r[k] < n && row[r[k]] == from && nxt[r[k]] == to
    ensures forall i {:trigger row[i], nxt[i]} :: 0 <= i < n && row[i] == from && nxt[i] == to ==> i in r
  {
    if n == 0 then []
    else Changed(row, nxt, n - 1, from, to)
         + (if row[n - 1] == from && nxt[n - 1] == to then [n - 1] else [])
  }

  /** The pitches of the given cells. */
  function Pitches(idxs: seq<int>, scale: seq<int>): (ps: set<int>)
    requires forall k :: 0 <= k < |idxs| ==> 0 <= idxs[k] < |scale|
    ensures forall k :: 0 <= k < |idxs| ==> scale[idxs[k]] in ps
    ensures forall p :: p in ps ==> exists k :: 0 <= k < |idxs| && scale[idxs[k]] == p
    decreases |idxs|
  {
    if |idxs| == 0 then {}
    else {scale[idxs[0]]} + Pitches(idxs[1..], scale)
  }

  /** The deaths of a sustain step, in cell order: a pitch that is sounding gets one
      note-off and stops sounding; a pitch that is not sounding is skipped. */
  function Offs(idxs: seq<int>, scale: seq<int>, active: set<int>, tick: int)
    : (r: (seq<Event>, set<int>))
    requires forall k :: 0 <= k < |idxs| ==> 0 <= idxs[k] < |scale|
    ensures r.1 == active - Pitches(idxs, scale)
    ensures forall e :: e in r.0 ==>
      e.tick == tick && e.msg.NoteOff? && e.msg.note in active && e.msg.note in Pitches(idxs, scale)
    ensures forall p :: p in active && p in Pitches(idxs, scale) ==> Event(tick, NoteOff(p)) in r.0
    ensures forall i, j :: 0 <= i < j < |r.0| ==> r.0[i].msg.note != r.0[j].msg.note
    decreases |idxs|
  {
    if |idxs| == 0 then ([], active)
    else
      var p := scale[idxs[0]];
      if p in active then
        var rest := Offs(idxs[1..], scale, active - {p}, tick);
        ([Event(tick, NoteOff(p))] + rest.0, rest.1)
      else
        Offs(idxs[1..], scale, active, tick)
  }

  /** The births of a sustain step, in cell order: one note-on per born cell. */
  function Ons(idxs: seq<int>, scale: seq<int>, age: seq<int>, tick: int): (r: seq<Event>)
    requires forall k :: 0 <= k < |idxs| ==> 0 <= idxs[k] < |scale| && idxs[k] < |age|
    ensures |r| == |idxs|
    ensures forall e :: e in r ==> e.tick == tick && e.msg.NoteOn? && e.msg.note in Pitches(idxs, scale)
    ensures forall k :: 0 <= k < |idxs| ==>
      Event(tick, NoteOn(scale[idxs[k]], Velocity(age[idxs[k]]))) in r
    decreases |idxs|
  {
    if |idxs| == 0 then []
    else [Event(tick, NoteOn(scale[idxs[0]], Velocity(age[idxs[0]])))]
         + Ons(idxs[1..], scale, age, tick)
  }

  /** The pitches of the live cells below `n` of `nxt`. */
  function LivePitches(nxt: Row, scale: seq<int>, n: nat): set<int>
    requires n <= |nxt| && n <= |scale|
  {
    set i | 0 <= i < n && nxt[i] == 1 :: scale[i]
  }

  /** The number of live cells below `n` of `nxt`. */
  function LiveCount(nxt: Row, n: nat): nat
    requires n <= |nxt|
  {
    if n == 0 then 0 else LiveCount(nxt, n - 1) + nxt[n - 1]
  }

  /** The events of a staccato step for the cells below `n`: a note-on at `base` and a
      note-off at `off` for every live cell, pair after pair in cell order. */
  function Retrigger(nxt: Row, scale: seq<int>, age: seq<int>, base: int, off: int, n: nat)
    : (r: seq<Event>)
    requires n <= |nxt| && n <= |scale| && n <= |age|
    ensures forall e :: e in r ==> (e.tick == base && e.msg.NoteOn?) || (e.tick == off && e.msg.NoteOff?)
    ensures forall e :: e in r && e.msg.NoteOn? ==> Event(off, NoteOff(e.msg.note)) in r
    ensures forall i :: 0 <= i < n && nxt[i] == 1 ==> Event(base, NoteOn(scale[i], Velocity(age[i]))) in r
    ensures |r| == 2 * LiveCount(nxt, n)
    decreases n
  {
    if n == 0 then []
    else Retrigger(nxt, scale, age, base, off, n - 1)
         + (if nxt[n - 1] == 1
            then [Event(base, NoteOn(scale[n - 1], Velocity(age[n - 1]))),
                  Event(off, NoteOff(scale[n - 1]))]
            else [])
  }

  /** A staccato step sounds only the pitches of live cells: every re-triggered note-on
      and note-off belongs to a cell that is live in `nxt`. */
  lemma {:induction false} RetriggerLive(nxt: Row, scale: seq<int>, age: seq<int>, base: int, off: int, n: nat)
    requires n <= |nxt| && n <= |scale| && n <= |age|
    ensures forall e :: e in Retrigger(nxt, scale, age, base, off, n) ==> e.msg.note in LivePitches(nxt, scale, n)
    decreases n
  {
    if n > 0 {
      RetriggerLive(nxt, scale, age, base, off, n - 1);
      assert LivePitches(nxt, scale, n - 1) <= LivePitches(nxt, scale, n);
      if nxt[n - 1] == 1 {
        assert scale[n - 1] in LivePitches(nxt, scale, n);
      }
    }
  }

  /** The cells that die when the row becomes `nxt`, in cell order. */
  function Deaths(st: State, nxt: Row): seq<int>
    requires |nxt| == |st.row|
  {
    Changed(st.row, nxt, |st.row|, 1, 0)
  }

  /** The cells that are born when the row becomes `nxt`, in cell order. */
  function Births(st: State, nxt: Row): seq<int>
    requires |nxt| == |st.row|
  {
    Changed(st.row, nxt, |st.row|, 0, 1)
  }

  /** The ages after the row becomes `nxt`. */
  function StepAges(cfg: Config, st: State, nxt: Row): seq<int>
    requires |st.age| == |st.row| == |nxt|
  {
    NextAges(st.row, nxt, st.age, cfg.staccato)
  }

  /** The events step `s` (zero-based) appends, at tick `s * q`: in sustain mode the
      note-offs of dying sounding pitches, then the note-ons of born cells; in staccato
      mode a note-on and a note-off `Gate(cfg)` ticks later for every live cell. */
  function Emitted(cfg: Config, scale: seq<int>, st: State, nxt: Row, s: nat): seq<Event>
    requires ValidConfig(cfg) && WellFormed(st, |st.row|, scale) && |nxt| == |st.row|
  {
    var base := s * cfg.q;
    if !cfg.staccato then
      Offs(Deaths(st, nxt), scale, st.active, base).0 + Ons(Births(st, nxt), scale, StepAges(cfg, st, nxt), base)
    else
      Retrigger(nxt, scale, StepAges(cfg, st, nxt), base, base + Gate(cfg), |st.row|)
  }

  /** The sounding pitches after the step: in sustain mode the dying pitches stop (the
      set Offs leaves behind) and the born ones start; staccato mode never records
      sounding pitches. */
  function NextActive(cfg: Config, scale: seq<int>, st: State, nxt: Row): set<int>
    requires WellFormed(st, |st.row|, scale) && |nxt| == |st.row|
  {
    if !cfg.staccato then
      (st.active - Pitches(Deaths(st, nxt), scale)) + Pitches(Births(st, nxt), scale)
    else
      st.active
  }

  /** Step `s` (zero-based) of the scheduler, moving the row to `nxt`. The bookkeeping
      does not depend on the rule; the render loop passes the toroidal successor. */
  function Step(cfg: Config, scale: seq<int>, st: State, nxt: Row, s: nat): (r: State)
    requires ValidConfig(cfg) && WellFormed(st, |st.row|, scale) && |nxt| == |st.row|
    ensures WellFormed(r, |st.row|, scale)
  {
    State(nxt, StepAges(cfg, st, nxt), NextActive(cfg, scale, st, nxt),
          st.events + Emitted(cfg, scale, st, nxt, s))
  }

  /** The state before the first step: all ages 0, nothing sounding, the tempo at tick 0. */
  function Start(cfg: Config, row0: Row): State
  {
    State(row0, seq(|row0|, i => 0), {}, [Event(0, Tempo(cfg.tempo))])
  }

  /** The state after the first `n` steps. */
  function Run(cfg: Config, scale: seq<int>, row0: Row, n: nat): (r: State)
    requires ValidConfig(cfg) && |row0| <= |scale|
    ensures WellFormed(r, |row0|, scale)
  {
    if n == 0 then Start(cfg, row0)
    else
      var st := Run(cfg, scale, row0, n - 1);
      Step(cfg, scale, st, NextToroidal(st.row), n - 1)
  }

  /** A non-empty set has an element (the case split lets the solver use extensionality). */
  lemma HasElement(s: set<int>)
    requires s != {}
    ensures exists y :: y in s
  {
    if forall y :: y !in s {
      assert false;
    }
  }

  /** The least element of a non-empty set. */
  lemma {:induction false} LeastOf(s: set<int>) returns (m: int)
    requires s != {}
    ensures m in s && forall y :: y in s ==> m <= y
    decreases |s|
  {
    HasElement(s);
    var x :| x in s;
    if s - {x} == {} {
      m := x;
      LeastAmong(s, x, x);
    } else {
      var r := LeastOf(s - {x});
      m := if x < r then x else r;
      LeastAmong(s, x, m);
    }
  }

  /** If `m` is at most `x` and at most every other element, it is at most every element. */
  lemma LeastAmong(s: set<int>, x: int, m: int)
    requires m <= x && forall y :: y in s - {x} ==> m <= y
    ensures forall y :: y in s ==> m <= y
  {
    forall y | y in s
      ensures m <= y
    {
      if y != x {
        assert y in s - {x};
      }
    }
  }

  lemma MinExists(s: set<int>)
    requires s != {}
    ensures exists m :: m in s && forall y :: y in s ==> m <= y
  {
    var m := LeastOf(s);
  }

  /** The elements of a set in increasing order (Python's `sorted` on a set of ints). */
  function Ascending(s: set<int>): (r: seq<int>)
    ensures forall p :: p in r <==> p in s
    ensures forall i, j :: 0 <= i < j < |r| ==> r[i] < r[j]
    decreases |s|
  {
    if s == {} then []
    else
      MinExists(s);
      var m :| m in s && forall y :: y in s ==> m <= y;
      var rest := Ascending(s - {m});
      PrependLeast(m, s, rest);
      [m] + rest
  }

  /** Putting the least element of `s` in front of an increasing listing of the rest gives
      an increasing listing of `s`. */
  lemma PrependLeast(m: int, s: set<int>, rest: seq<int>)
    requires m in s && forall y :: y in s ==> m <= y
    requires forall p :: p in rest <==> p in s - {m}
    requires forall i, j :: 0 <= i < j < |rest| ==> rest[i] < rest[j]
    ensures forall p :: p in [m] + rest <==> p in s
    ensures forall i, j :: 0 <= i < j < |rest| + 1 ==> ([m] + rest)[i] < ([m] + rest)[j]
  {
    var r := [m] + rest;
    forall i, j | 0 <= i < j < |r|
      ensures r[i] < r[j]
    {
      assert r[j] == rest[j - 1] && rest[j - 1] in s - {m};
    }
  }

  /** Note-offs at `tick` for the pitches `ps`, in order. */
  function OffsAt(ps: seq<int>, tick: int): (r: seq<Event>)
    ensures |r| == |ps|
    ensures forall k :: 0 <= k < |r| ==> r[k] == Event(tick, NoteOff(ps[k]))
  {
    seq(|ps|, k requires 0 <= k < |ps| => Event(tick, NoteOff(ps[k])))
  }

  /** The final flush: one note-off at `tick` for every pitch still sounding, in increasing
      pitch order. */
  function Flush(active: set<int>, tick: int): (r: seq<Event>)
    ensures forall e :: e in r ==> e.tick == tick && e.msg.NoteOff? && e.msg.note in active
    ensures forall p :: p in active ==> Event(tick, NoteOff(p)) in r
    ensures forall i, j :: 0 <= i < j < |r| ==> r[i].msg.note < r[j].msg.note
  {
    var ps := Ascending(active);
    var r := OffsAt(ps, tick);
    assert forall p :: p in active ==> Event(tick, NoteOff(p)) in r by {
      forall p | p in active
        ensures Event(tick, NoteOff(p)) in r
      {
        var k :| 0 <= k < |ps| && ps[k] == p;
        assert r[k] == Event(tick, NoteOff(p));
      }
    }
    r
  }

  /** The full, unsorted event list for `steps` steps: the steps' events, then in sustain
      mode the flush at tick `steps * q`. */
  function Schedule(cfg: Config, scale: seq<int>, row0: Row, steps: nat): seq<Event>
    requires ValidConfig(cfg) && |row0| <= |scale|
  {
    var st := Run(cfg, scale, row0, steps);
    if cfg.staccato then st.events else st.events + Flush(st.active, steps * cfg.q)
  }

  /** The written track: the events sorted by (tick, priority) and delta-packed from 0. */
  function RenderedTrack(cfg: Config, scale: seq<int>, row0: Row, steps: nat): seq<TrackMsg>
    requires ValidConfig(cfg) && |row0| <= |scale|
  {
    Pack(SortEvents(Schedule(cfg, scale, row0, steps)), 0)
  }
}

=== FILE: validation.dfy ===
/** The validation math: the anchored encoding of a row, the closed-form sequence of
    Rule 190 grown from a single live cell, and the proof that the fixed-zero automaton
    reproduces that sequence. */
module Validation {
  import opened Bits
  import opened Rule190
  import opened Arith

  /** Index of the rightmost live cell, or -1 when the row has none. */
  function Rightmost(row: Row): (idx: int)
    ensures -1 <= idx < |row|
    ensures idx >= 0 ==> row[idx] == 1
    ensures forall j :: idx < j < |row| ==> row[j] == 0
    decreases |row|
  {
    if |row| == 0 then -1
    else if row[|row| - 1] == 1 then |row| - 1
    else Rightmost(row[..|row| - 1])
  }

  /** Any index that is live with only dead cells to its right is the rightmost one. */
  lemma RightmostUnique(row: Row, idx: int)
    requires 0 <= idx < |row| && row[idx] == 1
    requires forall j :: idx < j < |row| ==> row[j] == 0
    ensures Rightmost(row) == idx
  {
  }

  /** The anchored value of a row: 0 when no cell is live; otherwise the rightmost live
      cell is bit 0 and every cell to its left, live or not, is the next higher bit. */
  function Anchored(row: Row): (x: nat)
    ensures x == 0 <==> forall i :: 0 <= i < |row| ==> row[i] == 0
  {
    var idx := Rightmost(row);
    if idx < 0 then 0
    else
      ValueBounds(row[..idx + 1]);
      Value(row[..idx + 1])
  }

  /** With the rightmost live cell at `idx`, the anchored value reads cells 0..idx. */
  lemma AnchoredAt(row: Row, idx: int)
    requires 0 <= idx < |row| && row[idx] == 1
    requires forall j :: idx < j < |row| ==> row[j] == 0
    ensures Anchored(row) == Value(row[..idx + 1])
  {
    RightmostUnique(row, idx);
  }

  /** A non-zero anchored value is odd (bit 0 is the anchor) and fits in idx+1 bits. */
  lemma AnchoredBounds(row: Row)
    requires Anchored(row) != 0
    ensures Rightmost(row) >= 0
    ensures Anchored(row) % 2 == 1
    ensures Anchored(row) < Pow2(Rightmost(row) + 1)
  {
    var idx := Rightmost(row);
    assert row[..idx + 1][idx] == 1;
    ValueBounds(row[..idx + 1]);
  }

  /** Dead cells added on the right of a row do not change its anchored value. */
  lemma AnchoredIgnoresRightZeros(row: Row, m: nat)
    ensures Anchored(row + Zeros(m)) == Anchored(row)
  {
    var big := row + Zeros(m);
    var idx := Rightmost(row);
    if idx < 0 {
      assert forall i :: 0 <= i < |big| ==> big[i] == 0;
    } else {
      assert forall j :: idx < j < |big| ==> big[j] == 0;
      AnchoredAt(big, idx);
      AnchoredAt(row, idx);
      assert big[..idx + 1] == row[..idx + 1];
    }
  }

  /** Dead cells added on the left shift the rightmost live cell by their number. */
  lemma RightmostAfterLeftZeros(row: Row, k: nat)
    ensures Rightmost(Zeros(k) + row) == if Rightmost(row) < 0 then -1 else k + Rightmost(row)
  {
    var big := Zeros(k) + row;
    var idx := Rightmost(row);
    if idx < 0 {
      forall j | 0 <= j < |big|
        ensures big[j] == 0
      {
        if j >= k {
          assert big[j] == row[j - k];
        }
      }
    } else {
      forall j | k + idx < j < |big|
        ensures big[j] == 0
      {
        assert big[j] == row[j - k];
      }
      assert big[k + idx] == row[idx];
      RightmostUnique(big, k + idx);
    }
  }

  /** Dead cells added on the left of a row do not change its anchored value. */
  lemma AnchoredIgnoresLeftZeros(row: Row, k: nat)
    ensures Anchored(Zeros(k) + row) == Anchored(row)
  {
    RightmostAfterLeftZeros(row, k);
    var idx := Rightmost(row);
    if idx >= 0 {
      LeftZerosPrefix(row, k, idx);
    }
  }

  lemma LeftZerosPrefix(row: Row, k: nat, idx: int)
    requires 0 <= idx < |row|
    ensures Value((Zeros(k) + row)[..k + idx + 1]) == Value(row[..idx + 1])
  {
    assert (Zeros(k) + row)[..k + idx + 1] == Zeros(k) + row[..idx + 1];
    ValueLeadingZeros(k, row[..idx + 1]);
  }

  /** Reading one more cell on the left of cells k+1..idx sets bit idx-k. */
  lemma ScanStep(row: Row, k: int, idx: int)
    requires 0 <= k <= idx < |row|
    ensures Value(row[k + 1..idx + 1]) < Pow2(idx - k)
    ensures Value(row[k..idx + 1]) == row[k] * Pow2(idx - k) + Value(row[k + 1..idx + 1])
  {
    var rest := row[k + 1..idx + 1];
    assert [row[k]] + rest == row[k..idx + 1];
    ValuePrepend(row[k], rest);
    ValueBounds(rest);
  }

  /** The first scan of `row_to_int_anchor_rightmost`: from the right end, the first live
      cell. */
  method ScanRightmost(row: Row) returns (idx: int)
    ensures idx == Rightmost(row)
  {
    idx := -1;
    var i := |row| - 1;
    while i >= 0
      invariant -1 <= i < |row|
      invariant forall j :: i < j < |row| ==> row[j] == 0
    {
      if row[i] == 1 {
        RightmostUnique(row, i);
        return i;
      }
      i := i - 1;
    }
  }

  lemma PrefixSlice(row: Row, m: nat)
    requires m <= |row|
    ensures Value(row[0..m]) == Value(row[..m])
  {
    assert row[0..m] == row[..m];
  }

  /** The second scan of `row_to_int_anchor_rightmost`: walking left from `idx`, cell `k`
      sets bit `idx - k`. */
  method PackLeftward(row: Row, idx: int) returns (x: nat)
    requires 0 <= idx < |row|
    ensures x == Value(row[0..idx + 1])
  {
    x := 0;
    var bit := 0;
    var k := idx;
    while k >= 0
      invariant -1 <= k <= idx
      invariant bit == idx - k
      invariant x == Value(row[k + 1..idx + 1])
    {
      ScanStep(row, k, idx);
      if row[k] == 1 {
        // x < 2^bit, so `x |= 1 << bit` adds 2^bit
        x := x + Pow2(bit);
      }
      bit := bit + 1;
      k := k - 1;
    }
  }

  /** `row_to_int_anchor_rightmost`: the anchored value, which is 0 exactly for a dead row
      and otherwise odd and below 2^(idx+1). */
  method RowToIntAnchorRightmost(row: Row) returns (x: nat)
    ensures x == Anchored(row)
    ensures x == 0 <==> forall i :: 0 <= i < |row| ==> row[i] == 0
    ensures x != 0 ==> x % 2 == 1 && x < Pow2(Rightmost(row) + 1)
  {
    var idx := ScanRightmost(row);
    if idx == -1 {
      return 0;
    }
    x := PackLeftward(row, idx);
    PrefixSlice(row, idx + 1);
    AnchoredAt(row, idx);
    AnchoredBounds(row);
  }

  /** Term `t` of a(t) = 4 a(t-1) + a(t-2) - 4 a(t-3) with a(0) = 1, a(1) = 7, a(2) = 29. */
  function SingleOneTerm(t: nat): int
  {
    if t == 0 then 1
    else if t == 1 then 7
    else if t == 2 then 29
    else 4 * SingleOneTerm(t - 1) + SingleOneTerm(t - 2) - 4 * SingleOneTerm(t - 3)
  }

  lemma SingleOneTermStep(t: nat)
    requires t >= 3
    ensures SingleOneTerm(t) == 4 * SingleOneTerm(t - 1) + SingleOneTerm(t - 2) - 4 * SingleOneTerm(t - 3)
  {
  }

  /** `rule190_single_one_sequence`: the first `n` terms, and none for `n <= 0`. */
  method SingleOneSequence(n: int) returns (a: seq<int>)
    ensures n <= 0 ==> a == []
    ensures n > 0 ==> |a| == n
    ensures forall t :: 0 <= t < |a| ==> a[t] == SingleOneTerm(t)
  {
    if n <= 0 {
      return [];
    }
    if n == 1 {
      return [1];
    }
    if n == 2 {
      return [1, 7];
    }
    a := [1, 7, 29];
    var k := 3;
    while k < n
      invariant 3 <= k <= n
      invariant |a| == k
      invariant forall t {:trigger a[t]} :: 0 <= t < k ==> a[t] == SingleOneTerm(t)
    {
      var next := 4 * a[|a| - 1] + a[|a| - 2] - 4 * a[|a| - 3];
      SingleOneTermStep(k);
      a := a + [next];
      k := k + 1;
    }
    a := a[..n];
  }

  /** The first-order increment: 3 after an even number of steps, 1 after an odd one (in
      the cone, the two new cells read 11 and 01). */
  function Tail(t: nat): int
  {
    2 + Alternating(t)
  }

  /** The third-order recurrence collapses to a first-order one: a(t+1) = 4 a(t) + tail. */
  lemma {:induction false} SingleOneFirstOrder(t: nat)
    ensures SingleOneTerm(t + 1) == 4 * SingleOneTerm(t) + Tail(t)
  {
    if t >= 2 {
      SingleOneFirstOrder(t - 2);
      assert Alternating(t) == Alternating(t - 2);
    }
  }

  function Pow4(t: nat): (p: nat)
    ensures p >= 1
  {
    if t == 0 then 1 else 4 * Pow4(t - 1)
  }

  /** (-1)^t. */
  function Alternating(t: nat): int
  {
    if t == 0 then 1 else -Alternating(t - 1)
  }

  lemma {:induction false} AlternatingParity(t: nat)
    ensures Alternating(t) == if t % 2 == 0 then 1 else -1
  {
    if t > 0 {
      AlternatingParity(t - 1);
    }
  }

  /** The closed form of the sequence: 15 a(t) = 28 * 4^t - 10 - 3 * (-1)^t. */
  lemma {:induction false} SingleOneClosedForm(t: nat)
    ensures 15 * SingleOneTerm(t) == 28 * Pow4(t) - 10 - 3 * Alternating(t)
  {
    if t > 0 {
      SingleOneClosedForm(t - 1);
      SingleOneFirstOrder(t - 1);
    }
  }

  /** The validation seed: width 1 + 2n with a single live cell at the centre `n`. */
  function CentredSeed(n: nat): (row: Row)
    ensures |row| == 1 + 2 * n
  {
    seq(1 + 2 * n, i => if i == n then 1 else 0)
  }

  /** The row after `t` fixed-zero steps. */
  function IterateFixed0(row: Row, t: nat): (r: Row)
    ensures |r| == |row|
  {
    if t == 0 then row else NextFixed0(IterateFixed0(row, t - 1))
  }

  /** Cell `j` of the light cone at step `t`, counting from the cone's left edge: the cone
      spans 2t+1 cells and repeats 1110 from the left. */
  function ConeCell(t: nat, j: int): Bit
  {
    if 0 <= j <= 2 * t then PatternBit(j) else 0
  }

  /** Cell `j` of the repeating pattern 1110 1110 ... */
  function PatternBit(j: int): Bit
  {
    if j % 4 == 3 then 0 else 1
  }

  /** The light cone at step `t` centred in a row of width 1 + 2n. */
  function ConeRow(n: nat, t: nat): (row: Row)
    ensures |row| == 1 + 2 * n
  {
    seq<Bit>(1 + 2 * n, i => ConeCell(t, i - n + t))
  }

  /** The phase of cell `j` in the repeating 1110 pattern, and of its two neighbours. */
  lemma ConePhases(j: int)
    ensures (j + 1) % 4 == (if j % 4 == 3 then 0 else j % 4 + 1)
    ensures (j - 1) % 4 == (if j % 4 == 0 then 3 else j % 4 - 1)
  {
    var q, m := j / 4, j % 4;
    if m == 3 {
      ModUnique(j + 1, q + 1, 0, 4);
    } else {
      ModUnique(j + 1, q, m + 1, 4);
    }
    if m == 0 {
      ModUnique(j - 1, q - 1, 3, 4);
    } else {
      ModUnique(j - 1, q, m - 1, 4);
    }
  }

  /** The cone cell `j + 1` at step `t + 1` is dead exactly when Rule 190 kills the
      neighbourhood of cone cell `j` at step `t`. */
  lemma ConeDies(t: nat, j: int)
    ensures ConeCell(t + 1, j + 1) == 0 <==> Dies(ConeCell(t, j - 1), ConeCell(t, j), ConeCell(t, j + 1))
  {
    ConePhases(j);
    ConePhases(j + 1);
  }

  lemma ConeRowCell(n: nat, t: nat, i: int)
    requires 0 <= i < 1 + 2 * n
    ensures ConeRow(n, t)[i] == ConeCell(t, i - n + t)
  {
  }

  /** Inside a row wider than the cone, the fixed-zero neighbours of row cell `i` are the
      neighbouring cone cells: the zero boundary is never reached by a live cell. */
  lemma ConeNeighbours(n: nat, t: nat, i: int)
    requires t < n && 0 <= i < 1 + 2 * n
    ensures ConeRow(n, t)[i] == ConeCell(t, i - n + t)
    ensures LeftZero(ConeRow(n, t), i) == ConeCell(t, i - n + t - 1)
    ensures RightZero(ConeRow(n, t), i) == ConeCell(t, i - n + t + 1)
  {
    var row := ConeRow(n, t);
    if i > 0 {
      assert row[i - 1] == ConeCell(t, i - 1 - n + t);
    } else {
      assert i - n + t - 1 < 0;
    }
    if i < 2 * n {
      assert row[i + 1] == ConeCell(t, i + 1 - n + t);
    } else {
      assert i - n + t + 1 > 2 * t;
    }
  }

  /** A bit that is 0 exactly when the neighbourhood of cell `i` dies is cell `i` of the
      next fixed-zero row. */
  lemma Fixed0Cell(row: Row, i: int, b: Bit)
    requires 0 <= i < |row|
    requires b == 0 <==> Dies(LeftZero(row, i), row[i], RightZero(row, i))
    ensures NextFixed0(row)[i] == b
  {
  }

  /** Cell `i` of the row one fixed-zero step after the cone at step `t - 1` is the cone
      cell at step `t`. */
  lemma ConeStepCell(n: nat, t: nat, i: int)
    requires 0 < t <= n && 0 <= i < 1 + 2 * n
    ensures NextFixed0(ConeRow(n, t - 1))[i] == ConeCell(t, i - n + t)
  {
    ConeNeighbours(n, t - 1, i);
    ConeDies(t - 1, i - n + t - 1);
    Fixed0Cell(ConeRow(n, t - 1), i, ConeCell(t, i - n + t));
  }

  /** While the cone stays inside the row, one fixed-zero step grows it by one cell on
      each side. */
  lemma ConeStep(n: nat, t: nat)
    requires 0 < t <= n
    ensures NextFixed0(ConeRow(n, t - 1)) == ConeRow(n, t)
  {
    forall i | 0 <= i < 1 + 2 * n
      ensures NextFixed0(ConeRow(n, t - 1))[i] == ConeRow(n, t)[i]
    {
      ConeStepCell(n, t, i);
      ConeRowCell(n, t, i);
    }
  }

  /** The single live cell is the cone at step 0. */
  lemma SeedIsCone(n: nat)
    ensures IterateFixed0(CentredSeed(n), 0) == ConeRow(n, 0)
  {
    forall i | 0 <= i < 1 + 2 * n
      ensures CentredSeed(n)[i] == ConeRow(n, 0)[i]
    {
      ConeRowCell(n, 0, i);
    }
  }

  /** If the seed has grown into the cone after t-1 steps, it is the cone after t steps. */
  lemma ConeEvolutionStep(n: nat, t: nat)
    requires 0 < t <= n
    requires IterateFixed0(CentredSeed(n), t - 1) == ConeRow(n, t - 1)
    ensures IterateFixed0(CentredSeed(n), t) == ConeRow(n, t)
  {
    ConeStep(n, t);
  }

  /** The centred seed grows as the light cone for the first n steps. */
  lemma ConeEvolution(n: nat, t: nat)
    requires t <= n
    ensures IterateFixed0(CentredSeed(n), t) == ConeRow(n, t)
  {
    if t == 0 {
      SeedIsCone(n);
    } else {
      ConeEvolution(n, t - 1);
      ConeEvolutionStep(n, t);
    }
  }

  /** The cone pattern 1110 1110 ... cut to `m` cells. */
  function Pattern(m: nat): (p: seq<Bit>)
    ensures |p| == m
  {
    seq<Bit>(m, j => PatternBit(j))
  }

  /** One more pattern cell is one more bit on the right. */
  lemma PatternSnoc(m: nat)
    ensures Value(Pattern(m + 1)) == 2 * Value(Pattern(m)) + PatternBit(m)
  {
    assert Pattern(m + 1) == Pattern(m) + [PatternBit(m)];
    ValueSnoc(Pattern(m), PatternBit(m));
  }

  /** The two cells that extend the cone from 2t+1 to 2t+3 cells read 11 after an even
      number of steps and 01 after an odd number. */
  lemma PatternEdgeBits(t: nat)
    ensures 2 * PatternBit(2 * t + 1) + PatternBit(2 * t + 2) == Tail(t)
  {
    AlternatingParity(t);
    var q := t / 2;
    assert t == 2 * q + t % 2;
    if t % 2 == 0 {
      ModUnique(2 * t + 1, q, 1, 4);
      ModUnique(2 * t + 2, q, 2, 4);
    } else {
      ModUnique(2 * t + 1, q, 3, 4);
      ModUnique(2 * t + 2, q + 1, 0, 4);
    }
  }

  /** The cone at step `t`, up to its last cell, is n-t dead cells and then the pattern. */
  lemma ConePrefix(n: nat, t: nat)
    requires t <= n
    ensures ConeRow(n, t)[..n + t + 1] == Zeros(n - t) + Pattern(2 * t + 1)
    ensures Value(ConeRow(n, t)[..n + t + 1]) == ConeValue(t)
  {
    var row := ConeRow(n, t);
    var lhs := row[..n + t + 1];
    var rhs := Zeros(n - t) + Pattern(2 * t + 1);
    forall k | 0 <= k < n + t + 1
      ensures lhs[k] == rhs[k]
    {
      ConeRowCell(n, t, k);
      if k >= n - t {
        assert rhs[k] == Pattern(2 * t + 1)[k - (n - t)];
      }
    }
    ValueLeadingZeros(n - t, Pattern(2 * t + 1));
  }

  /** The last cell of the cone is live and every cell after it is dead. */
  lemma ConeRightEdge(n: nat, t: nat)
    requires t <= n
    ensures ConeRow(n, t)[n + t] == 1
    ensures forall j :: n + t < j < 1 + 2 * n ==> ConeRow(n, t)[j] == 0
  {
    ConeRowCell(n, t, n + t);
    assert (2 * t) % 4 != 3 by {
      ModUnique(2 * t, t / 2, 2 * (t % 2), 4);
    }
    forall j | n + t < j < 1 + 2 * n
      ensures ConeRow(n, t)[j] == 0
    {
      ConeRowCell(n, t, j);
    }
  }

  /** The anchored value of the cone at step `t` is the value of its 2t+1 cells. */
  lemma ConeAnchored(n: nat, t: nat)
    requires t <= n
    ensures Anchored(ConeRow(n, t)) == ConeValue(t)
  {
    ConeRightEdge(n, t);
    AnchoredAt(ConeRow(n, t), n + t);
    ConePrefix(n, t);
  }

  /** The value of the cone pattern at step `t`, 2t+1 cells. */
  function ConeValue(t: nat): nat
  {
    Value(Pattern(2 * t + 1))
  }

  /** Two more cells of the pattern multiply its value by 4 and add the tail. */
  lemma PatternRecurrence(t: nat)
    ensures ConeValue(t + 1) == 4 * ConeValue(t) + Tail(t)
  {
    PatternSnoc(2 * t + 1);
    PatternSnoc(2 * t + 2);
    PatternEdgeBits(t);
  }

  /** The cone pattern of 2t+1 cells has value a(t). */
  lemma {:induction false} PatternValue(t: nat)
    ensures ConeValue(t) == SingleOneTerm(t)
  {
    if t == 0 {
      PatternSnoc(0);
    } else {
      PatternValue(t - 1);
      PatternValueStep(t);
    }
  }

  /** The pattern and the sequence grow by the same first-order step. */
  lemma PatternValueStep(t: nat)
    requires t > 0 && ConeValue(t - 1) == SingleOneTerm(t - 1)
    ensures ConeValue(t) == SingleOneTerm(t)
  {
    PatternRecurrence(t - 1);
    SingleOneFirstOrder(t - 1);
  }

  /** The cross-check of the program's driver holds for every width and step within the
      light cone: the anchored encoding of the fixed-zero evolution of a centred single 1
      is the closed-form sequence. */
  lemma SingleOneMatchesRecurrence(n: nat, t: nat)
    requires t <= n
    ensures Anchored(IterateFixed0(CentredSeed(n), t)) == SingleOneTerm(t)
  {
    ConeEvolution(n, t);
    ConeAnchored(n, t);
    PatternValue(t);
  }

  /** The driver's validation loop over the first `maxCheck` rows of a width
      1 + 2 * maxCheck row: it reports no mismatching step. */
  method ValidateSingleOne(maxCheck: nat) returns (ok: bool, mismatches: seq<int>)
    ensures ok
    ensures mismatches == []
  {
    var rowVal := CentredSeed(maxCheck);
    var expected := SingleOneSequence(maxCheck);
    ok := true;
    mismatches := [];
    for t := 0 to maxCheck
      invariant rowVal == IterateFixed0(CentredSeed(maxCheck), t)
      invariant ok && mismatches == []
    {
      var asInt := RowToIntAnchorRightmost(rowVal);
      SingleOneMatchesRecurrence(maxCheck, t);
      if asInt != expected[t] {
        ok := false;
        mismatches := mismatches + [t];
      }
      rowVal := NextFixed0(rowVal);
    }
  }
}
